=== FILE: README.md ===
# luc-devUtils in Dafny

A model of the four components of luc-devUtils, with proofs about them:

- **The timing accumulator** (`lib/timeTracker.js`). It is a mixin that keeps
  two tables per id: the tick of the last start, and the iterations and time
  that finished start/end pairs have added up.
- **The method interceptor** (`lib/interceptor.js`). It wraps object methods
  with shims that run configured behaviour around the method they replaced.
  Shims are installed in this order: logs, then times, then functions. The
  interceptor also keeps a list of restore actions that undoes every install.
- **The benchmark runner** (`lib/runner.js`). It runs each configured entry
  `iterations` times between a start and an end of the accumulator, under a
  display name. Each run credits `iterations` iterations to that name.
- **The break-on-change watcher** (`lib/watcher.js`). It replaces one
  property with a get/set accessor. The accessor runs hooks and breaks into
  the debugger when the value changes. A static registry supports pausing,
  resuming and restoring all watchers.

What the model abstracts:

- The host program's own functions are known by number. A `Host` says what
  each call returns and how many clock ticks it takes.
- The clock is a natural number that only host code advances.
- Everything observable is appended to a trace of events:
  - console `log`, `time`, `timeEnd`, `profile` and `profileEnd`;
  - every run of host code, with its arguments;
  - every `debugger` statement reached.
- Object methods are a heap of slots. Each slot holds host code, a shim
  around another method, or nothing.
- Watched properties are a map from (object, property) to a data property or
  to a watcher's accessor.

Modules:

- `values.dfy` (`Values`): the shared values, events, host, clock, and the
  decimal rendering of counters.
- `time_tracker.dfy` (`TimeTracker`)
- `interceptor.dfy` (`Interceptor`)
- `runner.dfy` (`Runner`)
- `watcher.dfy` (`Watcher`)

Where the code does more or less than its doc comments say (those on
`doBreak` at `lib/watcher.js:191-199` and on `restore` at
`lib/watcher.js:250-253`), the model follows the code:

- **Watcher break check.** `doBreak` tests `_paused` before it asks
  `doBreakIf`. A paused watcher therefore never runs a configured
  `doBreakIf` at all.
- **Restored property.** `restore` redefines an accessor as a data property
  given only a value. That makes the property non-writable, so later
  assignments are silently ignored.
- **Second watcher on one property.** A second watcher reads the property
  through the first watcher's getter, then replaces that accessor.

## Model

| member | source | states |
|---|---|---|
| TimeTracker.InitTimes | lib/timeTracker.js:18-25 | The tables are created empty the first time only; a tracker that has them is left exactly as it was, so later starts never reset totals. |
| TimeTracker.StampStart | lib/timeTracker.js:5-16 | After a start, `id`'s start tick is the current tick (overwriting an unfinished earlier start) and the accumulated totals are the ones held before. |
| TimeTracker.Start | lib/timeTracker.js:5-16 | `stampStart` sets the id's start tick to the current tick and leaves the set of recorded ids as it was. It does not move the clock and appends exactly the start console events. |
| TimeTracker.StampStartKeeps | lib/timeTracker.js:15 | A start of `id` neither adds nor changes the start tick of any other id. |
| TimeTracker.StampEnd | lib/timeTracker.js:26-48 | An end fails exactly when no start ever happened; otherwise `id` gets a record that has gained the iterations to add and the time since its start (NaN without a start), starting from zero when absent, and the start ticks are unchanged. |
| TimeTracker.End | lib/timeTracker.js:26-37 | `stampEnd` fails exactly when no start ever happened. Otherwise it adds the iterations to add to the id's record and records the id. It leaves the clock alone and appends exactly the end console events. |
| TimeTracker.ConsoleNests | lib/timeTracker.js:5-37 | The end console events close the start events in reverse order: `timeEnd` closes `time` and `profileEnd` closes `profile`. |
| TimeTracker.StampEndKeeps | lib/timeTracker.js:39-48 | An end of `id` leaves every other id's record, and its presence, unchanged. |
| TimeTracker.Divide | lib/timeTracker.js:61 | JavaScript division of a total by an iteration count: finite exactly when the total is a number and the count non-zero, and then average times count is the total; infinite, with the total's sign, exactly when the count is zero and the total a non-zero number. |
| TimeTracker.Report | lib/timeTracker.js:52-65 | The report has exactly the recorded ids as keys, copies each record's iterations and total time, and its average times the iterations gives back the total whenever the average is finite. For zero iterations the average is an infinity of the total's sign when the total is a non-zero number, and NaN otherwise. |
| TimeTracker.CycleAccumulates | lib/timeTracker.js:5-48 | One start/end pair adds the iterations to add and exactly the ticks between the two readings to `id`'s record, records `id`, and leaves every other record unchanged. |
| TimeTracker.CyclesAccumulate | lib/timeTracker.js:39-48 | After `n` start/end pairs on one id with iterations to add `k`, its record has gained `n * k` iterations and the total span of the pairs; other records are unchanged. |
| TimeTracker.MonotoneClockNonNegative | lib/timeTracker.js:39-48 | For an id with no earlier record and a clock that never goes back, `n` pairs give exactly `n * k` iterations and a total time that is a number and never negative. |
| Interceptor.Perform | lib/interceptor.js:124-157 | A before/after behaviour that does not throw only appends events and never moves the clock back. |
| Interceptor.Call | lib/interceptor.js:181-195 | Calling any method, shimmed or not, only appends events and never moves the clock back. |
| Interceptor.PerformUntimed | lib/interceptor.js:124-138 | A logging, callback or no-op behaviour never throws, leaves the accumulator alone and appends exactly its own effects. |
| Interceptor.UntimedShim | lib/interceptor.js:181-195 | A shim runs `before` first; when the method it replaced returns, the shim returns that same result, then logs it if asked, then runs `after` with the caller's arguments. |
| Interceptor.StackProtocol | lib/interceptor.js:172-199 | For untimed shims (`logs` and `functions` entries) stacked on host code, every `before` runs outermost first and strictly before the host code, which runs once with the caller's arguments. Then every result log and `after` runs innermost first, and the caller gets the host code's result unchanged. |
| Interceptor.StackResult | lib/interceptor.js:172-199 | For any stack of shims on host code, timed ones included (as when `times` and `functions` entries are installed on one method), a call that returns gives the caller the host code's result for the caller's arguments. |
| Interceptor.Intercept | lib/interceptor.js:172-199 | `_intercept` puts a shim around exactly what the slot held, changes no other slot, and puts a reinstall of the captured method at the front of the restore list. |
| Interceptor.InstallAll | lib/interceptor.js:172-199 | Installing bindings adds one reinstall per binding in reverse install order, in front of the existing list. |
| Interceptor.InstallStacksAt | lib/interceptor.js:175-181 | After the installs, each slot holds the bindings that target it stacked on what it held before, the last installed outermost; an untargeted slot is untouched. |
| Interceptor.ApplyAll | lib/interceptor.js:206-210 | Running the restore list writes exactly the slots it names and leaves every other slot as it was. |
| Interceptor.Restore | lib/interceptor.js:206-210 | After `restore`, each slot the list names holds the method of its last reinstall; every other slot keeps what it holds. |
| Interceptor.ApplyAllOverrides | lib/interceptor.js:206-210 | Running the restore list front to back overrides exactly the slots it names, each with the value of its last reinstall. |
| Interceptor.RestoreIdempotent | lib/interceptor.js:206-210 | Calling `restore` twice leaves the same heap as calling it once. |
| Interceptor.InstallFinal | lib/interceptor.js:197-199 | The restore list of a fresh interceptor finally writes, into exactly the targeted slots, the method each held before its first install. |
| Interceptor.RestoreReinstallsOriginals | lib/interceptor.js:197-210 | `restore` puts the pre-interceptor method back in every targeted slot, however many shims were stacked there and whatever the slot holds now; other slots keep their current contents. |
| Interceptor.InstallThenRestore | lib/interceptor.js:197-210 | Installing and then restoring gives every slot back the exact method it held before. |
| Interceptor.OldestFirstLeavesShim | lib/interceptor.js:197-199 | Unwinding two shims on one slot oldest first would leave the first shim in place; this is why the list is built newest first. |
| Interceptor.LogToFn | lib/interceptor.js:124-138 | A `logs` before/after option always becomes a behaviour that does not touch the accumulator. |
| Interceptor.LogToFnEffects | lib/interceptor.js:124-138 | A function logs what it returns for the call's arguments, after running; any other defined value is logged as is; undefined does nothing. |
| Interceptor.LogBinding | lib/interceptor.js:117-122 | A `logs` entry keeps its slot and result logging, its before and after are `_logToFn` of the entry's before and after options, and neither touches the accumulator. |
| Interceptor.LogBindingEffects | lib/interceptor.js:117-138 | A `logs` entry's shim, before and after the call, logs what a function option returns for the call's arguments (after running it), logs a defined value option as is, and does nothing for an undefined option. |
| Interceptor.TimeId | lib/interceptor.js:142 | A `times` id is the method name, then "_", then at least one decimal digit. |
| Interceptor.TimeBinding | lib/interceptor.js:147-157 | A `times` entry keeps its slot and result logging. Its before starts and its after stops the timer of the given id, both with the entry's log and profile flags. |
| Interceptor.FunctionBinding | lib/interceptor.js:165-170 | A `functions` entry's shim keeps the entry's method slot and result-log flag. A missing before or after becomes a no-op, and a given one becomes a callback on the call's arguments. |
| Interceptor.TimeBindings | lib/interceptor.js:140-157 | There is one binding per `times` entry, in order. The entry at position `i` gets the timer binding whose id is its method name and counter + `i`. |
| Interceptor.TimeIdsDistinct | lib/interceptor.js:142 | Ids built from different counter values differ, whatever the method names. |
| Interceptor.Bindings | lib/interceptor.js:104-109 | `init` installs one binding per entry: every `logs` binding, then every `times` binding with ids numbered from the counter in order, then every `functions` binding. |
| Interceptor.Init | lib/interceptor.js:104-109 | `init` advances the counter by the number of `times` entries and stacks on each slot its bindings in the order logs, times, functions; `restore` right after gives back every original method. |
| Interceptor.FunctionsOutermost | lib/interceptor.js:104-109 | With no restore, a slot any `functions` entry targets is a shim whose before, after and result logging are those of the last such entry. |
| Interceptor.TimedCall | lib/interceptor.js:147-157 | A call of a `times` shim returns the wrapped code's result. Its id's record gains one iteration and exactly the ticks the wrapped code took. Other records are unchanged. |
| Interceptor.TimedCallsCount | test/interceptor.js:52-71 | `n` calls of a `times` shim never throw, and give its id `n` more iterations (the interceptor adds 1 per call) and `n` times the wrapped code's ticks. |
| Interceptor.GetReport | lib/interceptor.js:212-224 | The report has exactly the recorded ids as keys, with each record's iterations and total time. |
| Runner.New | lib/runner.js:74-106 | A new runner has the given entries, 10 iterations unless configured, no console timing or profiling unless set to true, and an empty report. |
| Runner.SetIterations | lib/runner.js:148-150 | Changes the iteration count and nothing else, accumulated totals included. |
| Runner.SetLog | lib/runner.js:156-158 | Changes the console-timing flag and nothing else. |
| Runner.SetProfile | lib/runner.js:164-166 | Changes the profiling flag and nothing else. |
| Runner.DisplayName | lib/runner.js:115-123 | An entry with a name is reported under it; one without is reported under "index:" and its position. |
| Runner.Target | lib/runner.js:118-123 | A named entry calls its `fn`, or itself when it has none; an unnamed entry calls itself. |
| Runner.UnnamedDistinct | lib/runner.js:121 | Unnamed entries at different positions get different names. |
| Runner.RunForIterations | lib/runner.js:136-142 | The loop throws exactly when it must call and nothing is callable. Otherwise the clock never goes back and the trace only grows. |
| Runner.RunForIterationsCalls | lib/runner.js:136-142 | The loop calls the function exactly `n` times with no arguments, advancing the clock by `n` times its cost. It makes no call when `n` is not positive, and it throws on the first call when nothing is callable. |
| Runner.RunFunction | lib/runner.js:130-134 | An entry finishes exactly when it is run zero times or can be called. Its start is always stamped, and its name is recorded exactly when it finishes. The clock never goes back and the trace only grows. |
| Runner.StepClosed | lib/runner.js:130-134 | A callable entry finishes: the accumulator has seen one start/end pair on its name spanning the entry's ticks, and the trace shows its start, its calls and its end. |
| Runner.RunFunctionEffect | lib/runner.js:130-134 | A finished entry's name gains exactly `iterations` iterations and the ticks of its calls; no other name is credited or recorded. |
| Runner.StopsAt | lib/runner.js:113-128 | The stopping point is the first uncallable entry when entries are called at all. It is the end of the list exactly when nothing is called or every entry from the start is callable. |
| Runner.RunFrom | lib/runner.js:113-128 | A run from a position stops only at an entry from that position on that is called but cannot be. It completes only when nothing is called or every entry from there on can be called. The clock never goes back and the trace only grows. |
| Runner.Run | lib/runner.js:113-128 | `run` keeps every setting and changes only the accumulator. It completes exactly when nothing is called or every entry can be called; otherwise it names an entry that cannot be. The clock never goes back and the trace only grows. |
| Runner.AbortStep | lib/runner.js:130-134 | An entry that is called but cannot be stops the run there. Only its start has happened, so no record changes. |
| Runner.ContinueStep | lib/runner.js:113-128 | After an entry finishes, the run continues with the next entry from the accumulator and clock that entry left. |
| Runner.StepCredit | lib/runner.js:170-172 | One finished entry adds `iterations` to its own name's count and nothing to any other; it records its name. |
| Runner.RunFromIsPlanned | lib/runner.js:113-134 | The run from any position agrees with the closed-form reference run. |
| Runner.PlannedStops | lib/runner.js:113-128 | A run stops exactly at the first entry that is called but cannot be, and it completes when there is none. |
| Runner.PlannedCredit | lib/runner.js:113-134 | A run credits each name `iterations` for every entry before the stopping point reported under it. A name with no such entry and no record stays unrecorded. |
| Runner.PlannedIterations | lib/runner.js:113-134 | The iterations a run credits a name are `iterations` for each entry before the stopping point that is reported under that name. |
| Runner.PlannedUnrecorded | lib/runner.js:113-134 | A name with no record and no entry before the stopping point is still unrecorded after the run. |
| Runner.RunFromCounts | lib/runner.js:113-134 | For every name, a run adds `iterations` times the number of entries reported under it before the stopping point. It reports where it stopped. |
| Runner.PlannedTrace | lib/runner.js:113-142 | When every entry is callable, the trace shows the entries in configured order, each as its start, exactly `iterations` calls and its end. |
| Runner.RunCredits | lib/runner.js:113-142 | A run in which every entry can be called completes. It credits every name `iterations` per entry under it, shows each entry's start, calls and end in order, and keeps the settings. |
| Runner.RunEmpty | lib/runner.js:113-128 | With no entries, `run` changes nothing. |
| Runner.RunsAccumulate | lib/runner.js:170-172 | A run with `a` iterations followed by one with `b` credits every name `a + b` times per entry under it. |
| Runner.RunFromRecords | lib/runner.js:113-134 | A run keeps every name already recorded and records the name of every entry it finishes: all entries from the starting one when it completes, and those before the entry whose call threw otherwise. |
| Runner.TwoRunsOnce | lib/runner.js:113-134 | From an unstarted accumulator, two runs report a name that exactly one callable entry carries, with the iterations of both runs added, whatever their sign. |
| Runner.ThousandThenHundred | test/runner.js:23-37 | One unnamed function run with 1000 iterations and then 100 is reported under "index:0" with 1100 iterations. |
| Runner.GetReport | lib/runner.js:169-180 | The report has exactly the recorded names as keys, with each record's iterations and total time. |
| Watcher.Call | lib/watcher.js:220-231 | An unset hook does nothing observable; a configured one runs once with the given arguments. |
| Watcher.Get | lib/watcher.js:163-166 | A read returns the value unchanged: undefined when absent, else the held value. Only an accessor runs a hook, its watcher's `beforeGet` on (value, object). |
| Watcher.DoBreak | lib/watcher.js:187-208 | The break check only appends events. `debugger` is reached exactly once when the watcher is not paused and `doBreakIf` holds, otherwise never. A paused watcher does nothing at all, not even ask `doBreakIf`. |
| Watcher.Set | lib/watcher.js:167-173 | An assignment keeps the world valid and changes only the assigned property. Through an accessor it runs `beforeSet(new, old, object)` first and stores the new value whatever the break outcome. A non-writable data property ignores it. An absent property or a writable data property ends as a writable data property holding the value. An assignment to an unwatched property runs nothing. |
| Watcher.SetBreaks | lib/watcher.js:167-173 | An assignment through an accessor reaches `debugger` once exactly when `doBreak` is enabled and fires; `beforeSet` never does. |
| Watcher.SetThenGet | lib/watcher.js:163-173 | Reading right after assigning gives the assigned value, except on a non-writable data property. |
| Watcher.BreakOnChange | lib/watcher.js:167-204 | With the default `doBreakIf`, assignments reach `debugger` once per change of value. They never do when the watcher is paused or `doBreak` is disabled. |
| Watcher.Create | lib/watcher.js:140-175 | Construction fails, with nothing run, exactly when `obj` is missing or falsy (checked first), the property name is missing, or `obj` is not an object (defining the accessor throws). Otherwise the property becomes a fresh watcher's accessor holding its current value, read as any read would be. The watcher is appended to the registry and the world stays valid. |
| Watcher.RemoveFirst | lib/watcher.js:12-16 | Removes exactly one occurrence of the id when present, the head when the list starts with it, and changes nothing otherwise. |
| Watcher.RemoveFirstAt | lib/watcher.js:12-16 | When the id first occurs at position `i`, removal leaves the elements before `i` followed by those after it, in their order. |
| Watcher.RemoveFirstDistinct | lib/watcher.js:12-16 | On a registry without repeats, removal takes the id out entirely, keeps every other id, and keeps the registry without repeats. |
| Watcher.Restore | lib/watcher.js:254-261 | `restore` reads the property once and leaves a data property holding the watched value. An accessor becomes non-writable; a data property stays as it was. The watcher is unregistered and nothing else changes. |
| Watcher.RestoreTwice | lib/watcher.js:254-261 | Restoring a second time changes nothing and runs no hook. |
| Watcher.RestoredIgnoresSets | lib/watcher.js:254-261 | After `restore`, the property keeps the watched value, ignores assignments and runs no hook on reads or writes. |
| Watcher.SetPaused | lib/watcher.js:236-245 | Pausing or resuming sets that watcher's flag and changes nothing else. |
| Watcher.Pause | lib/watcher.js:236-238 | After `pause`, `isPaused` is true; only that watcher's `_paused` changes, and the properties, the registry and every other watcher are kept. |
| Watcher.Resume | lib/watcher.js:243-245 | After `resume`, `isPaused` is false; only that watcher's `_paused` changes, and the properties, the registry and every other watcher are kept. |
| Watcher.IsPaused | lib/watcher.js:247-249 | While `isPaused` is true the break check never fires. When it is not and `doBreakIf` is the default, every change of value fires. |
| Watcher.PausedNeverBreaks | lib/watcher.js:200-204 | A paused watcher never reaches `debugger`, whatever is assigned. Once resumed, a change breaks again. |
| Watcher.SetPausedEach | lib/watcher.js:4-8 | Every listed watcher gets the flag. The other watchers and everything else stay unchanged. |
| Watcher.PauseAll | lib/watcher.js:118-120 | `pauseAll` pauses every registered watcher and no other, keeping the world valid. Only `_paused` flags change: the properties, the registry and every watcher's hooks are kept. |
| Watcher.ResumeAll | lib/watcher.js:125-127 | `resumeAll` resumes every registered watcher and no other, keeping the world valid. Only `_paused` flags change: the properties, the registry and every watcher's hooks are kept. |
| Watcher.GetAll | lib/watcher.js:111-113 | The registry lists each watcher at most once, each registered with a property, and it lists the watcher of every accessor. |
| Watcher.GetAllCreate | lib/watcher.js:9-11 | A created watcher is added at the end of the registry (`_addStatic` at line 143). |
| Watcher.GetAllRestore | lib/watcher.js:12-16 | A restored watcher is removed from its position in the registry, and the others keep their order (`_removeStatic` at line 260). |
| Watcher.RestoreEach | lib/watcher.js:132-136 | Restoring the listed watchers one by one keeps the world valid and every watcher object, unregisters each listed watcher and registers none. Every property keeps its value and its presence. An accessor of a listed watcher becomes a non-writable data property; data properties, and properties that no listed watcher watches, are unchanged. |
| Watcher.RestoreProps | lib/watcher.js:254-261 | One `restore` keeps every property's value. An accessor on the watched property becomes a non-writable data property, and every other property, or a data property there, is unchanged. |
| Watcher.RestoreEachData | lib/watcher.js:132-136 | After restoring the listed watchers, each of their properties is a data property, and so is every property that was one before (a corollary of `RestoreEach`). |
| Watcher.RestoreAll | lib/watcher.js:132-136 | `restoreAll` empties the registry, keeps the world valid, and leaves the property of every watcher that was registered a data property. Exactly the accessors change: each becomes a non-writable data property holding its value, and every other property is kept. |
| Watcher.RestoreAllClears | lib/watcher.js:132-136 | `restoreAll` leaves the registry empty and no accessor behind. After it, no assignment runs a hook or reaches `debugger`. |
| Watcher.BreakOnChangeExample | test/watcher.js:24-45 | A property holding true, watched with the defaults and assigned true, false, false, true, reaches `debugger` twice. |

## Left out

- `lib/utils.js` is not part of this model. The model has no real clock: the
  tick count is a natural number that host code advances, and there is no
  floating-point time. The console is the event trace.
- The `Luc` library is not part of this model. That covers `Luc.define`
  classes, `Luc.mix`/`Luc.apply` config merging, and `Luc.id`, which the
  model replaces with an explicit counter. It also covers the
  single-or-array normalisation: configs are given as sequences.
- The report of an accumulator that never started is modelled as empty. This
  assumes `Luc.Object.each` over an undefined table visits nothing.
- Profiling and console timing appear only as events. The `debugger`
  statement is an event too; nothing in the model pauses.
- The fallback at `lib/watcher.js:262-273`, for hosts without
  `Object.defineProperty`, is a host capability check.
- `Gruntfile.js` and `gruntTasks/` are build tooling.
- `this` binding is not modelled. Shims, hooks and entries are called
  without a receiver, and a hook that inspects `this` is not modelled.
- Host code that throws is not modelled. The model assumes host functions
  return, so the only exceptions are the ones the components raise
  themselves:
  - calling a missing or non-callable method or entry;
  - ending an accumulator that never started.
- Watcher.BreakOnChange: numbers are integers, so NaN is not a value. With
  the default `doBreakIf` (`newValue !== oldVal`, `lib/watcher.js:187-189`),
  assigning NaN over NaN reaches `debugger` every time although the value
  did not change; "once per change of value" holds on the model's values,
  and the NaN case is not modelled.
- Watcher.GetAll: `getAll` returns the registry array itself
  (`lib/watcher.js:111-113`), so a caller that changes the returned array
  changes the registry. The model returns a value; that aliasing is not
  modelled.
- Interceptor.StackProtocol: the full ordering of hooks, host code and
  events is stated for stacks of untimed shims only. For a stack that mixes
  timed shims with others on one method (as `test/interceptor.js:111-135`
  installs), `Interceptor.StackResult` states only that a returning call
  gives the host code's result, and `Interceptor.TimedCall` covers one timed
  shim on its own.
- Re-entrant host code is not modelled: host code is assumed not to re-enter
  the interceptor, the runner or the watcher. A `Host` function is a result and a cost and adds
  only its own invocation to the trace; it cannot call an intercepted
  method, run a runner or assign a watched property. So, for instance, a
  recursive function under a `times` shim, whose inner call stamps the same
  id again (`lib/interceptor.js:150-155`) and overwrites the start tick
  (`lib/timeTracker.js:5-16`), so that the outer call is measured from the
  innermost start, is not modelled.
- Interceptor.Call: one accumulator is threaded through every timed shim a
  call runs. In the source each interceptor's shims stamp their own
  accumulator (`me` at `lib/interceptor.js:148-155`), so this matches the
  shims of a single interceptor; timed shims of several interceptors on one
  call are not modelled.
- Interceptor.Intercept: a config whose `obj` is missing or not an object is
  not modelled; every slot belongs to an object. In the source, reading
  `obj[fnName]` at `lib/interceptor.js:175` throws for undefined or null.
  That ends `init` (`lib/interceptor.js:104-109`) with the shims installed
  so far left in place. For a primitive `obj`, the assignments at
  `lib/interceptor.js:181` and `lib/interceptor.js:198` are ignored.
- Runner names and watched properties are strings. Non-string keys are not
  modelled.
- A `functions` entry whose `fn` is truthy but not a function is not
  modelled.
- TimeTracker.StampEnd: every id gets a record of its own. In the source an
  id naming an inherited member of `Object.prototype` ("toString",
  "constructor", "__proto__") passes `if (!this._totalTimes[id])` at
  `lib/timeTracker.js:40`. No record is created for it, and the additions
  go to the inherited member instead. The model's records are a map with no
  inherited keys.
- The runner's `iterations` is an integer. A fractional count is not
  modelled.
- `Runner.RunForIterationsCalls` states the clock advance as a sum of `n`
  costs. `Runner.TimesIsProduct` equates that sum with `n` times the cost.
- A `logs`/`functions` option explicitly set to undefined, so that it
  shadows the default, is not modelled.
- Watcher.Create: a watcher's hooks are fixed when it is created. The
  accessor in the source reads `me.beforeGet`, `me.beforeSet` and
  `me.doBreak` at each access (`lib/watcher.js:163-173`), so reassigning
  them on a live watcher would take effect. The model has no operation that
  changes them.
- A watcher's `doBreak` is a flag: enabled, or disabled with `false`. A
  custom `doBreak` function is not modelled. A custom `doBreakIf` is.
- Non-configurable or frozen objects are not modelled, and neither is
  `delete`.
- A strict-mode assignment to a restored (non-writable) property throws in
  JavaScript. The model follows sloppy mode and ignores the assignment.
- Starting or ending an id while the console runs is not timed: console
  output takes no ticks.

=== FILE: interceptor.dfy ===
/** The method interceptor: it replaces object methods with shims that run
    configured behaviour around the method they replaced, and it keeps a list
    of reinstall actions that undoes the replacements. Host objects are
    modelled as an explicit heap of method slots; a method is the host's own
    code, a shim around another method, or missing. */
module Interceptor {
  import opened Values
  import TimeTracker

  /** A method slot: `obj[fnName]`. */
  datatype Slot = Slot(obj: nat, name: string)

  /** The resolved before/after actions of a binding. */
  datatype Behavior =
    | Noop                                               // Luc.emptyFn
    | LogValue(v: Val)                                   // logs a fixed message
    | LogCall(f: nat)                                    // logs what host function f returns for the call's arguments
    | Callback(f: nat)                                   // runs host function f on the call's arguments
    | StartTimer(id: string, log: bool, profile: bool)   // stampStart on the interceptor's accumulator
    | StopTimer(id: string, log: bool, profile: bool)    // stampEnd on the interceptor's accumulator

  /** What a method slot holds. `Shim` is the closure `_intercept` installs,
      with everything it captured: before, after, logResult and the method it
      replaced. */
  datatype Fn =
    | Missing
    | Native(f: nat)
    | Shim(before: Behavior, after: Behavior, logResult: bool, inner: Fn)

  type Heap = map<Slot, Fn>

  /** `obj[fnName]`; a slot never assigned reads as missing. */
  function Lookup(h: Heap, s: Slot): Fn {
    if s in h then h[s] else Missing
  }

  /** One resolved interception: where, and what to run around the call. */
  datatype Binding = Binding(slot: Slot, before: Behavior, after: Behavior, logResult: bool)

  function Wrap(b: Binding, inner: Fn): Fn {
    Shim(b.before, b.after, b.logResult, inner)
  }

  /** The interceptor's `_getIterationsToAdd`: every timed call counts once. */
  const IterationsToAdd: int := 1

  /** The end of a call: its result, or the exception it threw; either way
      the accumulator and the clock and console as they were left. */
  datatype Outcome =
    | Returned(value: Val, tracker: TimeTracker.Tracker, env: Env)
    | Threw(tracker: TimeTracker.Tracker, env: Env)

  /** Runs one behaviour; None when it throws (a stop on an accumulator that
      was never started). */
  function Perform(b: Behavior, args: seq<Val>, host: Host, t: TimeTracker.Tracker, env: Env)
    : (r: Option<(TimeTracker.Tracker, Env)>)
    ensures r.Some? ==> r.value.1.now >= env.now && env.trace <= r.value.1.trace
  {
    match b
    case Noop => Some((t, env))
    case LogValue(v) => Some((t, Emit(env, [Log(v)])))
    case LogCall(f) => Some((t, Emit(RunHost(host, f, args, env), [Log(host.result(f, args))])))
    case Callback(f) => Some((t, RunHost(host, f, args, env)))
    case StartTimer(id, log, profile) => Some(TimeTracker.Start(t, id, log, profile, env))
    case StopTimer(id, log, profile) => TimeTracker.End(t, id, log, profile, IterationsToAdd, env)
  }

  /** Calls a method. A shim runs `before` with the call's arguments, then the
      method it replaced with the same arguments, then logs the result if
      asked, then runs `after` with the call's arguments (not the result), and
      returns the result. Calling a missing method throws. Events are only
      ever appended and the clock never goes back. */
  function Call(f: Fn, args: seq<Val>, host: Host, t: TimeTracker.Tracker, env: Env): (r: Outcome)
    ensures r.env.now >= env.now
    ensures env.trace <= r.env.trace
    decreases f
  {
    match f
    case Missing => Threw(t, env)
    case Native(g) => Returned(host.result(g, args), t, RunHost(host, g, args, env))
    case Shim(before, after, logResult, inner) =>
      match Perform(before, args, host, t, env)
      case None => Threw(t, env)
      case Some((t1, e1)) =>
        match Call(inner, args, host, t1, e1)
        case Threw(t2, e2) => Threw(t2, e2)
        case Returned(v, t2, e2) =>
          var e3 := if logResult then Emit(e2, [Log(v)]) else e2;
          match Perform(after, args, host, t2, e3)
          case None => Threw(t2, e3)
          case Some((t4, e4)) => Returned(v, t4, e4)
  }

  /* ---------------- what the behaviours do ---------------- */

  /** Behaviours that do not touch the accumulator. */
  predicate Untimed(b: Behavior) {
    !b.StartTimer? && !b.StopTimer?
  }

  /** The events an untimed behaviour produces. */
  function Effects(b: Behavior, args: seq<Val>, host: Host): seq<Event>
    requires Untimed(b)
  {
    match b
    case Noop => []
    case LogValue(v) => [Log(v)]
    case LogCall(f) => [Invoked(f, args), Log(host.result(f, args))]
    case Callback(f) => [Invoked(f, args)]
  }

  /** An untimed behaviour never throws, leaves the accumulator alone and
      appends exactly its effects. */
  lemma PerformUntimed(b: Behavior, args: seq<Val>, host: Host, t: TimeTracker.Tracker, env: Env)
    requires Untimed(b)
    ensures Perform(b, args, host, t, env).Some?
    ensures Perform(b, args, host, t, env).value.0 == t
    ensures Perform(b, args, host, t, env).value.1.trace == env.trace + Effects(b, args, host)
  {
  }

  /* ---------------- stacked shims ---------------- */

  /** The method a slot holds after `bs` were installed on it, in order, on
      top of `base`: the last installed is the outermost. */
  function Nest(bs: seq<Binding>, base: Fn): Fn
    decreases |bs|
  {
    if |bs| == 0 then base else Wrap(bs[|bs| - 1], Nest(bs[..|bs| - 1], base))
  }

  /** The `before` effects of a stack, outermost first. */
  function Prologue(bs: seq<Binding>, args: seq<Val>, host: Host): seq<Event>
    requires forall i :: 0 <= i < |bs| ==> Untimed(bs[i].before)
    decreases |bs|
  {
    if |bs| == 0 then []
    else Effects(bs[|bs| - 1].before, args, host) + Prologue(bs[..|bs| - 1], args, host)
  }

  /** The result logs and `after` effects of a stack, innermost first. */
  function Epilogue(bs: seq<Binding>, v: Val, args: seq<Val>, host: Host): seq<Event>
    requires forall i :: 0 <= i < |bs| ==> Untimed(bs[i].after)
    decreases |bs|
  {
    if |bs| == 0 then []
    else
      var b := bs[|bs| - 1];
      Epilogue(bs[..|bs| - 1], v, args, host) + (if b.logResult then [Log(v)] else []) + Effects(b.after, args, host)
  }

  /** One untimed shim: it runs `before`, hands the call to the method it
      wraps, and when that returns, logs the result if asked, runs `after`,
      and returns the same result with the accumulator as the inner call left
      it. */
  lemma UntimedShim(b: Binding, inner: Fn, args: seq<Val>, host: Host, t: TimeTracker.Tracker, env: Env)
    requires Untimed(b.before) && Untimed(b.after)
    ensures Perform(b.before, args, host, t, env).Some?
    ensures Perform(b.before, args, host, t, env).value.1.trace == env.trace + Effects(b.before, args, host)
    ensures var ri := Call(inner, args, host, t, Perform(b.before, args, host, t, env).value.1);
            var r := Call(Wrap(b, inner), args, host, t, env);
            ri.Returned? ==>
              && r.Returned? && r.value == ri.value && r.tracker == ri.tracker
              && r.env.trace == ri.env.trace + (if b.logResult then [Log(ri.value)] else []) + Effects(b.after, args, host)
  {
    PerformUntimed(b.before, args, host, t, env);
    var e1 := Perform(b.before, args, host, t, env).value.1;
    var ri := Call(inner, args, host, t, e1);
    if ri.Returned? {
      var e3 := if b.logResult then Emit(ri.env, [Log(ri.value)]) else ri.env;
      PerformUntimed(b.after, args, host, ri.tracker, e3);
    }
  }

  /** The call protocol of a stack of untimed shims around host code `o`:
      every `before` runs, outermost first, strictly before `o`; `o` runs once
      with the caller's arguments; then every result log and `after` runs,
      innermost first, with the caller's arguments; the caller gets `o`'s
      result unchanged. */
  lemma {:induction false} StackProtocol(bs: seq<Binding>, o: nat, args: seq<Val>, host: Host,
                                         t: TimeTracker.Tracker, env: Env)
    requires forall i :: 0 <= i < |bs| ==> Untimed(bs[i].before) && Untimed(bs[i].after)
    ensures Call(Nest(bs, Native(o)), args, host, t, env).Returned?
    ensures Call(Nest(bs, Native(o)), args, host, t, env).value == host.result(o, args)
    ensures Call(Nest(bs, Native(o)), args, host, t, env).tracker == t
    ensures Call(Nest(bs, Native(o)), args, host, t, env).env.trace
            == env.trace + Prologue(bs, args, host) + [Invoked(o, args)] + Epilogue(bs, host.result(o, args), args, host)
    decreases |bs|
  {
    if |bs| > 0 {
      var b, pre := bs[|bs| - 1], bs[..|bs| - 1];
      var v := host.result(o, args);
      assert Nest(bs, Native(o)) == Wrap(b, Nest(pre, Native(o)));
      assert forall i :: 0 <= i < |pre| ==> pre[i] == bs[i];
      UntimedShim(b, Nest(pre, Native(o)), args, host, t, env);
      var e1 := Perform(b.before, args, host, t, env).value.1;
      StackProtocol(pre, o, args, host, t, e1);
      var bf, af := Effects(b.before, args, host), Effects(b.after, args, host);
      var lg := if b.logResult then [Log(v)] else [];
      var pro, epi := Prologue(pre, args, host), Epilogue(pre, v, args, host);
      var e2 := Call(Nest(pre, Native(o)), args, host, t, e1).env;
      assert e2.trace == env.trace + bf + pro + [Invoked(o, args)] + epi;
      assert Prologue(bs, args, host) == bf + pro;
      assert Epilogue(bs, v, args, host) == epi + lg + af;
      var r := Call(Wrap(b, Nest(pre, Native(o))), args, host, t, env);
      assert r.env.trace == e2.trace + lg + af;
      SeqShuffle(env.trace, bf, pro, [Invoked(o, args)], epi, lg, af);
      assert r.env.trace == env.trace + Prologue(bs, args, host) + [Invoked(o, args)] + Epilogue(bs, v, args, host);
    }
  }

  /** Any stack around host code `o`, timed shims included: whenever the
      call returns, it returns `o`'s result for the caller's arguments. */
  lemma {:induction false} StackResult(bs: seq<Binding>, o: nat, args: seq<Val>, host: Host,
                                       t: TimeTracker.Tracker, env: Env)
    ensures var r := Call(Nest(bs, Native(o)), args, host, t, env);
            r.Returned? ==> r.value == host.result(o, args)
    decreases |bs|
  {
    if |bs| > 0 {
      var b, pre := bs[|bs| - 1], bs[..|bs| - 1];
      assert Nest(bs, Native(o)) == Wrap(b, Nest(pre, Native(o)));
      match Perform(b.before, args, host, t, env)
      case None =>
      case Some((t1, e1)) => StackResult(pre, o, args, host, t1, e1);
    }
  }

  lemma SeqShuffle<T>(a: seq<T>, b: seq<T>, c: seq<T>, d: seq<T>, e: seq<T>, f: seq<T>, g: seq<T>)
    ensures a + b + c + d + e + f + g == a + (b + c) + d + (e + f + g)
  {
  }

  /* ---------------- installing and restoring ---------------- */

  /** A restore closure: puts back what a slot held before one install. */
  datatype Reinstall = Reinstall(slot: Slot, saved: Fn)

  /** The interceptor's own state: the restore list and its accumulator.
      `Call` neither reads nor writes `tracker`: the accumulator the timed
      shims stamp is a parameter of `Call`, and the lemmas about timed calls
      state their effect on whatever accumulator is passed in. */
  datatype Interceptor = Interceptor(restoreFns: seq<Reinstall>, tracker: TimeTracker.Tracker)

  /** `_intercept`: the slot gets a shim around whatever it holds now, and a
      reinstall of that captured method goes to the front of the restore
      list. */
  function Intercept(ic: Interceptor, h: Heap, b: Binding): (r: (Interceptor, Heap))
    ensures Lookup(r.1, b.slot) == Wrap(b, Lookup(h, b.slot))
    ensures forall s :: s != b.slot ==> Lookup(r.1, s) == Lookup(h, s)
    ensures r.0.restoreFns == [Reinstall(b.slot, Lookup(h, b.slot))] + ic.restoreFns
    ensures r.0.tracker == ic.tracker
  {
    var held := Lookup(h, b.slot);
    (ic.(restoreFns := [Reinstall(b.slot, held)] + ic.restoreFns), h[b.slot := Wrap(b, held)])
  }

  /** The bindings of `bs` that target slot `s`, in order. */
  function OnSlot(bs: seq<Binding>, s: Slot): seq<Binding>
    decreases |bs|
  {
    if |bs| == 0 then []
    else OnSlot(bs[..|bs| - 1], s) + (if bs[|bs| - 1].slot == s then [bs[|bs| - 1]] else [])
  }

  /** The slots `bs` target. */
  function Slots(bs: seq<Binding>): set<Slot>
    decreases |bs|
  {
    if |bs| == 0 then {} else Slots(bs[..|bs| - 1]) + {bs[|bs| - 1].slot}
  }

  /** A slot no binding of `bs` targets is not among its slots. */
  lemma {:induction false} NotInSlots(bs: seq<Binding>, s: Slot)
    requires forall i :: 0 <= i < |bs| ==> bs[i].slot != s
    ensures s !in Slots(bs)
    decreases |bs|
  {
    if |bs| > 0 {
      NotInSlots(bs[..|bs| - 1], s);
    }
  }

  /** Installs `bs` in order, by `_intercept`. The restore list gains one
      reinstall per binding, in reverse install order, in front of what it
      held; `InstallStacks` states what each slot ends up holding. */
  function InstallAll(ic: Interceptor, h: Heap, bs: seq<Binding>): (r: (Interceptor, Heap))
    ensures |r.0.restoreFns| == |bs| + |ic.restoreFns|
    ensures forall i :: 0 <= i < |bs| ==> r.0.restoreFns[i].slot == bs[|bs| - 1 - i].slot
    ensures r.0.restoreFns[|bs|..] == ic.restoreFns
    ensures r.0.tracker == ic.tracker
    decreases |bs|
  {
    if |bs| == 0 then (ic, h)
    else
      var pre, b := bs[..|bs| - 1], bs[|bs| - 1];
      var mid := InstallAll(ic, h, pre);
      Intercept(mid.0, mid.1, b)
  }

  /** The last install on top of the others. */
  lemma InstallStep(ic: Interceptor, h: Heap, bs: seq<Binding>)
    requires |bs| > 0
    ensures var b, mid := bs[|bs| - 1], InstallAll(ic, h, bs[..|bs| - 1]);
            && InstallAll(ic, h, bs).0.restoreFns == [Reinstall(b.slot, Lookup(mid.1, b.slot))] + mid.0.restoreFns
            && InstallAll(ic, h, bs).1 == mid.1[b.slot := Wrap(b, Lookup(mid.1, b.slot))]
  {
  }

  /** After installing `bs`, slot `s` holds its bindings stacked on what it
      held before, the last one outermost; a slot no binding targets is
      untouched. */
  lemma {:induction false} InstallStacksAt(ic: Interceptor, h: Heap, bs: seq<Binding>, s: Slot)
    ensures Lookup(InstallAll(ic, h, bs).1, s) == Nest(OnSlot(bs, s), Lookup(h, s))
    decreases |bs|
  {
    if |bs| > 0 {
      var pre, b := bs[..|bs| - 1], bs[|bs| - 1];
      var mid := InstallAll(ic, h, pre);
      InstallStep(ic, h, bs);
      InstallStacksAt(ic, h, pre, s);
      var xs := OnSlot(pre, s);
      if s == b.slot {
        assert OnSlot(bs, s) == xs + [b];
        assert (xs + [b])[..|xs|] == xs;
      } else {
        assert OnSlot(bs, s) == xs + [];
        assert xs + [] == xs;
      }
    }
  }

  lemma InstallStacks(ic: Interceptor, h: Heap, bs: seq<Binding>)
    ensures forall s :: Lookup(InstallAll(ic, h, bs).1, s) == Nest(OnSlot(bs, s), Lookup(h, s))
  {
    forall s ensures Lookup(InstallAll(ic, h, bs).1, s) == Nest(OnSlot(bs, s), Lookup(h, s)) {
      InstallStacksAt(ic, h, bs, s);
    }
  }

  /** Runs the restore list front to back (`restore`): it writes only the
      slots the list names. */
  function ApplyAll(h: Heap, rs: seq<Reinstall>): (r: Heap)
    ensures r.Keys == h.Keys + Final(rs).Keys
    ensures forall s :: s in h && s !in Final(rs) ==> r[s] == h[s]
    decreases |rs|
  {
    if |rs| == 0 then h else ApplyAll(h[rs[0].slot := rs[0].saved], rs[1..])
  }

  /** `restore`: every slot the restore list names gets the method its last
      reinstall saved; every other slot keeps what it holds. */
  function Restore(ic: Interceptor, h: Heap): (h': Heap)
    ensures h' == h + Final(ic.restoreFns)
  {
    ApplyAllOverrides(h, ic.restoreFns);
    ApplyAll(h, ic.restoreFns)
  }

  /** What a restore list leaves in each slot it names: the value its last
      reinstall for that slot writes. */
  function Final(rs: seq<Reinstall>): map<Slot, Fn>
    decreases |rs|
  {
    if |rs| == 0 then map[] else map[rs[0].slot := rs[0].saved] + Final(rs[1..])
  }

  /** Running a restore list overrides exactly the slots it names with their
      final values. */
  lemma {:induction false} ApplyAllOverrides(h: Heap, rs: seq<Reinstall>)
    ensures ApplyAll(h, rs) == h + Final(rs)
    decreases |rs|
  {
    if |rs| > 0 {
      var s, v := rs[0].slot, rs[0].saved;
      ApplyAllOverrides(h[s := v], rs[1..]);
      var f := Final(rs[1..]);
      assert h[s := v] + f == h + (map[s := v] + f);
    }
  }

  /** Calling `restore` a second time changes nothing: the list is kept, and
      running it again writes the same values. */
  lemma RestoreIdempotent(ic: Interceptor, h: Heap)
    ensures Restore(ic, Restore(ic, h)) == Restore(ic, h)
  {
    var f := Final(ic.restoreFns);
    ApplyAllOverrides(h, ic.restoreFns);
    ApplyAllOverrides(h + f, ic.restoreFns);
    assert (h + f) + f == h + f;
  }

  lemma {:induction false} OnSlotUntouched(bs: seq<Binding>, s: Slot)
    requires s !in Slots(bs)
    ensures OnSlot(bs, s) == []
    decreases |bs|
  {
    if |bs| > 0 {
      OnSlotUntouched(bs[..|bs| - 1], s);
    }
  }

  lemma SlotsSnoc(pre: seq<Binding>, b: Binding)
    ensures Slots(pre + [b]) == Slots(pre) + {b.slot}
  {
    assert (pre + [b])[..|pre|] == pre;
  }

  /** Installing `bs` on a fresh restore list leaves a list whose final
      values are exactly the methods the targeted slots held before the
      first install. */
  lemma InstallFinal(t: TimeTracker.Tracker, h: Heap, bs: seq<Binding>)
    ensures Final(InstallAll(Interceptor([], t), h, bs).0.restoreFns).Keys == Slots(bs)
    ensures forall s :: s in Slots(bs) ==> Final(InstallAll(Interceptor([], t), h, bs).0.restoreFns)[s] == Lookup(h, s)
  {
    InstallFinalKeys(t, h, bs);
    InstallFinalValues(t, h, bs);
  }

  lemma {:induction false} InstallFinalKeys(t: TimeTracker.Tracker, h: Heap, bs: seq<Binding>)
    ensures Final(InstallAll(Interceptor([], t), h, bs).0.restoreFns).Keys == Slots(bs)
    decreases |bs|
  {
    if |bs| > 0 {
      var pre, b := bs[..|bs| - 1], bs[|bs| - 1];
      assert bs == pre + [b];
      var mid := InstallAll(Interceptor([], t), h, pre);
      InstallFinalKeys(t, h, pre);
      var rs := InstallAll(Interceptor([], t), h, bs).0.restoreFns;
      InstallStep(Interceptor([], t), h, bs);
      assert rs[1..] == mid.0.restoreFns;
      assert Final(rs) == map[b.slot := rs[0].saved] + Final(mid.0.restoreFns);
      SlotsSnoc(pre, b);
    }
  }

  lemma {:induction false} InstallFinalValues(t: TimeTracker.Tracker, h: Heap, bs: seq<Binding>)
    ensures Final(InstallAll(Interceptor([], t), h, bs).0.restoreFns).Keys == Slots(bs)
    ensures forall s :: s in Slots(bs) ==> Final(InstallAll(Interceptor([], t), h, bs).0.restoreFns)[s] == Lookup(h, s)
    decreases |bs|
  {
    InstallFinalKeys(t, h, bs);
    if |bs| > 0 {
      var pre, b := bs[..|bs| - 1], bs[|bs| - 1];
      assert bs == pre + [b];
      var mid := InstallAll(Interceptor([], t), h, pre);
      InstallFinalValues(t, h, pre);
      var rs := InstallAll(Interceptor([], t), h, bs).0.restoreFns;
      InstallStep(Interceptor([], t), h, bs);
      var held := Lookup(mid.1, b.slot);
      assert rs[1..] == mid.0.restoreFns;
      var fm := Final(mid.0.restoreFns);
      assert Final(rs) == map[b.slot := held] + fm;
      SlotsSnoc(pre, b);
      if b.slot !in Slots(pre) {
        OnSlotUntouched(pre, b.slot);
        InstallStacksAt(Interceptor([], t), h, pre, b.slot);
        assert held == Lookup(h, b.slot);
      }
      forall x | x in Slots(bs) ensures Final(rs)[x] == Lookup(h, x) {
        if x in fm {
          assert Final(rs)[x] == fm[x];
        } else {
          assert x == b.slot;
        }
      }
    }
  }

  /** `restore` after installing `bs` on a fresh restore list puts back, in
      every slot `bs` targeted, the method it held before the first install,
      however many shims were stacked on it and whatever the slot holds now;
      other slots keep what they hold now. */
  lemma RestoreReinstallsOriginals(t: TimeTracker.Tracker, h0: Heap, bs: seq<Binding>, h: Heap)
    ensures forall s :: Lookup(Restore(InstallAll(Interceptor([], t), h0, bs).0, h), s)
                        == if s in Slots(bs) then Lookup(h0, s) else Lookup(h, s)
  {
    var ic := InstallAll(Interceptor([], t), h0, bs).0;
    ApplyAllOverrides(h, ic.restoreFns);
    InstallFinal(t, h0, bs);
  }

  /** Right after installing, `restore` gives every slot back the exact
      method it held before. */
  lemma InstallThenRestore(t: TimeTracker.Tracker, h0: Heap, bs: seq<Binding>)
    ensures forall s :: Lookup(Restore(InstallAll(Interceptor([], t), h0, bs).0, InstallAll(Interceptor([], t), h0, bs).1), s)
                        == Lookup(h0, s)
  {
    var r := InstallAll(Interceptor([], t), h0, bs);
    RestoreReinstallsOriginals(t, h0, bs, r.1);
    forall s | s !in Slots(bs) ensures Lookup(r.1, s) == Lookup(h0, s) {
      OnSlotUntouched(bs, s);
      InstallStacksAt(Interceptor([], t), h0, bs, s);
    }
  }

  /** Why the list runs newest first: two shims stacked on a slot, unwound
      oldest first, leave the first shim in place instead of the original. */
  lemma OldestFirstLeavesShim(h0: Heap, b1: Binding, b2: Binding)
    requires b1.slot == b2.slot
    ensures var r := InstallAll(Interceptor([], TimeTracker.Fresh), h0, [b1, b2]);
            var rs := r.0.restoreFns;
            Lookup(ApplyAll(r.1, [rs[1], rs[0]]), b1.slot) == Wrap(b1, Lookup(h0, b1.slot))
  {
    var ic0 := Interceptor([], TimeTracker.Fresh);
    assert [b1][..0] == [];
    assert InstallAll(ic0, h0, []) == (ic0, h0);
    var mid := InstallAll(ic0, h0, [b1]);
    assert mid == Intercept(ic0, h0, b1);
    assert [b1, b2][..1] == [b1];
    var r := InstallAll(ic0, h0, [b1, b2]);
    assert r == Intercept(mid.0, mid.1, b2);
    var rs := r.0.restoreFns;
    assert rs[0] == Reinstall(b1.slot, Wrap(b1, Lookup(h0, b1.slot)));
    assert rs[1] == Reinstall(b1.slot, Lookup(h0, b1.slot));
    var back := [rs[1], rs[0]];
    assert back[1..] == [rs[0]];
    assert [rs[0]][1..] == [];
    var h1 := r.1[b1.slot := Lookup(h0, b1.slot)];
    assert ApplyAll(r.1, back) == ApplyAll(h1, [rs[0]]);
    assert ApplyAll(h1, [rs[0]]) == ApplyAll(h1[b1.slot := Wrap(b1, Lookup(h0, b1.slot))], []);
  }

  /* ---------------- configuration ---------------- */

  /** A `logs` before/after option: a function, or any other value. */
  datatype Operand = Value(v: Val) | Function(f: nat)

  datatype LogConfig = LogConfig(slot: Slot, before: Operand, after: Operand, logResult: bool)
  datatype TimeConfig = TimeConfig(slot: Slot, log: bool, profile: bool, logResult: bool)
  datatype FunctionConfig = FunctionConfig(slot: Slot, before: Option<nat>, after: Option<nat>, logResult: bool)

  /** The three configuration groups, each already a list. */
  datatype Config = Config(logs: seq<LogConfig>, times: seq<TimeConfig>, functions: seq<FunctionConfig>)

  /** `_logToFn`: a function logs what it returns for the call's arguments,
      any other defined value is logged as is, undefined does nothing. */
  function LogToFn(op: Operand): (r: Behavior)
    ensures Untimed(r)
  {
    match op
    case Function(f) => LogCall(f)
    case Value(v) => if v == Undefined then Noop else LogValue(v)
  }

  lemma LogToFnEffects(op: Operand, args: seq<Val>, host: Host)
    ensures op == Value(Undefined) ==> Effects(LogToFn(op), args, host) == []
    ensures op.Value? && op.v != Undefined ==> Effects(LogToFn(op), args, host) == [Log(op.v)]
    ensures op.Function? ==> Effects(LogToFn(op), args, host) == [Invoked(op.f, args), Log(host.result(op.f, args))]
  {
  }

  /** `_createLogInterceptConfig`: a `logs` entry only logs, on its own slot. */
  function LogBinding(c: LogConfig): (b: Binding)
    ensures b.slot == c.slot && b.logResult == c.logResult
    ensures b.before == LogToFn(c.before) && b.after == LogToFn(c.after)
    ensures Untimed(b.before) && Untimed(b.after)
  {
    Binding(c.slot, LogToFn(c.before), LogToFn(c.after), c.logResult)
  }

  /** What a `logs` entry's shim does around the call: its before option,
      then its after option, each logs a function's result for the call's
      arguments, or a defined value as is, or nothing for undefined. */
  lemma LogBindingEffects(c: LogConfig, args: seq<Val>, host: Host)
    ensures var b := LogBinding(c);
            && (c.before == Value(Undefined) ==> Effects(b.before, args, host) == [])
            && (c.before.Value? && c.before.v != Undefined ==> Effects(b.before, args, host) == [Log(c.before.v)])
            && (c.before.Function? ==>
                  Effects(b.before, args, host) == [Invoked(c.before.f, args), Log(host.result(c.before.f, args))])
            && (c.after == Value(Undefined) ==> Effects(b.after, args, host) == [])
            && (c.after.Value? && c.after.v != Undefined ==> Effects(b.after, args, host) == [Log(c.after.v)])
            && (c.after.Function? ==>
                  Effects(b.after, args, host) == [Invoked(c.after.f, args), Log(host.result(c.after.f, args))])
  {
    LogToFnEffects(c.before, args, host);
    LogToFnEffects(c.after, args, host);
  }

  /** `_createFunctionInterceptConfig`: a missing before or after is a no-op. */
  function FunctionBinding(c: FunctionConfig): (b: Binding)
    ensures b.slot == c.slot && b.logResult == c.logResult
    ensures c.before.None? <==> b.before == Noop
    ensures c.after.None? <==> b.after == Noop
    ensures c.before.Some? ==> b.before == Callback(c.before.value)
    ensures c.after.Some? ==> b.after == Callback(c.after.value)
  {
    Binding(c.slot,
            if c.before.Some? then Callback(c.before.value) else Noop,
            if c.after.Some? then Callback(c.after.value) else Noop,
            c.logResult)
  }

  /** The id of a `times` entry: its method name, "_", and a fresh number. */
  function TimeId(fnName: string, n: nat): (id: string)
    ensures |id| > |fnName| + 1 && id[..|fnName|] == fnName && id[|fnName|] == '_'
    ensures forall i :: |fnName| < i < |id| ==> '0' <= id[i] <= '9'
  {
    fnName + "_" + Decimal(n)
  }

  /** `_createTimeConfig`: stampStart before, stampEnd after, on the entry's id. */
  function TimeBinding(c: TimeConfig, id: string): (b: Binding)
    ensures b.slot == c.slot && b.logResult == c.logResult
    ensures b.before.StartTimer? && b.after.StopTimer?
    ensures b.before.id == id && b.after.id == id
    ensures b.before.log == b.after.log == c.log && b.before.profile == b.after.profile == c.profile
  {
    Binding(c.slot, StartTimer(id, c.log, c.profile), StopTimer(id, c.log, c.profile), c.logResult)
  }

  /** `_initTimeLogs`: the `times` bindings, numbered from the process-wide
      counter. */
  function TimeBindings(ts: seq<TimeConfig>, counter: nat): (r: seq<Binding>)
    ensures |r| == |ts|
    ensures forall i :: 0 <= i < |ts| ==> r[i] == TimeBinding(ts[i], TimeId(ts[i].slot.name, counter + i))
  {
    seq(|ts|, i requires 0 <= i < |ts| => TimeBinding(ts[i], TimeId(ts[i].slot.name, counter + i)))
  }

  /** No two `times` entries share an id, even on methods with the same name,
      and ids from the same counter never meet those of later entries. */
  lemma TimeIdsDistinct(f1: string, f2: string, n1: nat, n2: nat)
    requires n1 != n2
    ensures TimeId(f1, n1) != TimeId(f2, n2)
  {
    SuffixedDistinct(f1, f2, '_', n1, n2);
  }

  /** Every binding `init` installs, in install order: logs, then times,
      then functions. */
  function Bindings(cfg: Config, counter: nat): (bs: seq<Binding>)
    ensures |bs| == |cfg.logs| + |cfg.times| + |cfg.functions|
    ensures forall i :: 0 <= i < |cfg.logs| ==> bs[i] == LogBinding(cfg.logs[i])
    ensures forall i :: 0 <= i < |cfg.times| ==>
              bs[|cfg.logs| + i] == TimeBinding(cfg.times[i], TimeId(cfg.times[i].slot.name, counter + i))
    ensures forall i :: 0 <= i < |cfg.functions| ==>
              bs[|cfg.logs| + |cfg.times| + i] == FunctionBinding(cfg.functions[i])
  {
    seq(|cfg.logs|, i requires 0 <= i < |cfg.logs| => LogBinding(cfg.logs[i]))
    + TimeBindings(cfg.times, counter)
    + seq(|cfg.functions|, i requires 0 <= i < |cfg.functions| => FunctionBinding(cfg.functions[i]))
  }

  /** `init`: an empty restore list and an unstarted accumulator, then every
      binding installed. Returns the interceptor, the heap, and the counter
      after the ids it drew. */
  function Init(cfg: Config, h: Heap, counter: nat): (r: (Interceptor, Heap, nat))
    ensures r.2 == counter + |cfg.times|
    ensures forall s :: Lookup(r.1, s) == Nest(OnSlot(Bindings(cfg, counter), s), Lookup(h, s))
    ensures forall s :: Lookup(Restore(r.0, r.1), s) == Lookup(h, s)
  {
    var (ic, h') := InstallAll(Interceptor([], TimeTracker.Fresh), h, Bindings(cfg, counter));
    InstallThenRestore(TimeTracker.Fresh, h, Bindings(cfg, counter));
    InstallStacks(Interceptor([], TimeTracker.Fresh), h, Bindings(cfg, counter));
    (ic, h', counter + |cfg.times|)
  }

  lemma {:induction false} OnSlotAppend(xs: seq<Binding>, ys: seq<Binding>, s: Slot)
    ensures OnSlot(xs + ys, s) == OnSlot(xs, s) + OnSlot(ys, s)
    decreases |ys|
  {
    if |ys| > 0 {
      var ys', y := ys[..|ys| - 1], ys[|ys| - 1];
      var zs := xs + ys;
      assert zs[..|zs| - 1] == xs + ys';
      assert zs[|zs| - 1] == y;
      OnSlotAppend(xs, ys', s);
      var tail := if y.slot == s then [y] else [];
      calc {
        OnSlot(zs, s);
        OnSlot(xs + ys', s) + tail;
        OnSlot(xs, s) + OnSlot(ys', s) + tail;
        OnSlot(xs, s) + (OnSlot(ys', s) + tail);
        OnSlot(xs, s) + OnSlot(ys, s);
      }
    } else {
      assert xs + ys == xs;
    }
  }

  /** With no restore, the outermost shim on a slot any `functions` entry
      targets is the last such entry's: functions are installed after logs
      and times. */
  lemma FunctionsOutermost(cfg: Config, h: Heap, counter: nat, s: Slot, j: nat)
    requires j < |cfg.functions| && cfg.functions[j].slot == s
    requires forall k :: j < k < |cfg.functions| ==> cfg.functions[k].slot != s
    ensures Lookup(Init(cfg, h, counter).1, s).Shim?
    ensures Lookup(Init(cfg, h, counter).1, s).before == FunctionBinding(cfg.functions[j]).before
    ensures Lookup(Init(cfg, h, counter).1, s).after == FunctionBinding(cfg.functions[j]).after
    ensures Lookup(Init(cfg, h, counter).1, s).logResult == cfg.functions[j].logResult
  {
    var fs := seq(|cfg.functions|, i requires 0 <= i < |cfg.functions| => FunctionBinding(cfg.functions[i]));
    var front := seq(|cfg.logs|, i requires 0 <= i < |cfg.logs| => LogBinding(cfg.logs[i]))
                 + TimeBindings(cfg.times, counter);
    assert Bindings(cfg, counter) == front + fs;
    assert fs[j] == FunctionBinding(cfg.functions[j]);
    OutermostIsLast(front, fs, Lookup(h, s), s, j);
  }

  /** Nesting the shims of `front` and then `fs` that target slot `s` puts
      outermost the last binding of `fs` that targets `s`. */
  lemma OutermostIsLast(front: seq<Binding>, fs: seq<Binding>, base: Fn, s: Slot, j: nat)
    requires j < |fs| && fs[j].slot == s
    requires forall k :: j < k < |fs| ==> fs[k].slot != s
    ensures var f := Nest(OnSlot(front + fs, s), base);
            f.Shim? && f.before == fs[j].before && f.after == fs[j].after && f.logResult == fs[j].logResult
  {
    OnSlotAppend(front, fs, s);
    LastOnSlot(fs, j, s);
    var stack := OnSlot(front, s) + OnSlot(fs, s);
    assert stack[|stack| - 1] == fs[j];
    assert Nest(stack, base) == Wrap(fs[j], Nest(stack[..|stack| - 1], base));
  }

  /** The outermost binding on a slot is the last one that targets it. */
  lemma LastOnSlot(xs: seq<Binding>, j: nat, s: Slot)
    requires j < |xs| && xs[j].slot == s
    requires forall k :: j < k < |xs| ==> xs[k].slot != s
    ensures |OnSlot(xs, s)| > 0 && OnSlot(xs, s)[|OnSlot(xs, s)| - 1] == xs[j]
  {
    var head, tail := xs[..j + 1], xs[j + 1..];
    assert xs == head + tail;
    OnSlotAppend(head, tail, s);
    forall i | 0 <= i < |tail| ensures tail[i].slot != s {
      assert tail[i] == xs[j + 1 + i];
    }
    NotInSlots(tail, s);
    OnSlotUntouched(tail, s);
    assert OnSlot(head, s) == OnSlot(head[..j], s) + [xs[j]];
  }

  /* ---------------- timed calls ---------------- */

  /** One call of a `times` shim around host code `o`: it returns `o`'s
      result, and the entry's record gains one iteration and exactly the
      ticks `o` took; other records are untouched. */
  lemma TimedCall(c: TimeConfig, id: string, o: nat, args: seq<Val>, host: Host,
                  t: TimeTracker.Tracker, env: Env)
    ensures var r := Call(Wrap(TimeBinding(c, id), Native(o)), args, host, t, env);
            && r.Returned? && r.value == host.result(o, args)
            && TimeTracker.Prior(r.tracker, id)
               == TimeTracker.Record(TimeTracker.Prior(t, id).iterationsRun + 1,
                                     TimeTracker.Plus(TimeTracker.Prior(t, id).totalTime, TimeTracker.Ticks(host.cost(o, args))))
            && TimeTracker.Recorded(r.tracker) == TimeTracker.Recorded(t) + {id}
            && (forall x :: x != id ==> TimeTracker.Prior(r.tracker, x) == TimeTracker.Prior(t, x))
  {
    TimedCallCycle(c, id, o, args, host, t, env);
    TimeTracker.CycleAccumulates(t, id, env.now, env.now + host.cost(o, args), IterationsToAdd);
  }

  /** A call through one `times` shim returns the host code's result, and
      its accumulator is one start/end cycle around the host code's ticks. */
  lemma TimedCallCycle(c: TimeConfig, id: string, o: nat, args: seq<Val>, host: Host,
                       t: TimeTracker.Tracker, env: Env)
    ensures var r := Call(Wrap(TimeBinding(c, id), Native(o)), args, host, t, env);
            && r.Returned? && r.value == host.result(o, args)
            && r.tracker == TimeTracker.Cycle(t, id, env.now, env.now + host.cost(o, args), IterationsToAdd)
  {
    var b := TimeBinding(c, id);
    var v := host.result(o, args);
    var (t1, e1) := TimeTracker.Start(t, id, c.log, c.profile, env);
    assert Perform(b.before, args, host, t, env) == Some((t1, e1));
    var e2 := RunHost(host, o, args, e1);
    assert Call(Native(o), args, host, t1, e1) == Returned(v, t1, e2);
    var e3 := if c.logResult then Emit(e2, [Log(v)]) else e2;
    var t4 := TimeTracker.StampEnd(t1, id, e3.now, IterationsToAdd).value;
    assert Perform(b.after, args, host, t1, e3).value.0 == t4;
    assert t4 == TimeTracker.Cycle(t, id, env.now, env.now + host.cost(o, args), IterationsToAdd);
  }

  /** Calls `f` `n` times with the same arguments; None if one of them threw. */
  function CallRepeatedly(f: Fn, args: seq<Val>, host: Host, t: TimeTracker.Tracker, env: Env, n: nat)
    : Option<(TimeTracker.Tracker, Env)>
    decreases n
  {
    if n == 0 then Some((t, env))
    else
      match Call(f, args, host, t, env)
      case Threw(_, _) => None
      case Returned(_, t', env') => CallRepeatedly(f, args, host, t', env', n - 1)
  }

  /** `n` calls of a `times` shim count `n` iterations for its id, and `n`
      times the ticks the wrapped code takes. */
  lemma TimedCallsCount(c: TimeConfig, id: string, o: nat, args: seq<Val>, host: Host,
                        t: TimeTracker.Tracker, env: Env, n: nat)
    ensures CallRepeatedly(Wrap(TimeBinding(c, id), Native(o)), args, host, t, env, n).Some?
    ensures var r := CallRepeatedly(Wrap(TimeBinding(c, id), Native(o)), args, host, t, env, n).value.0;
            TimeTracker.Prior(r, id)
            == TimeTracker.Record(TimeTracker.Prior(t, id).iterationsRun + n,
                                  TimeTracker.Plus(TimeTracker.Prior(t, id).totalTime, TimeTracker.Ticks(n * host.cost(o, args))))
  {
    var f := Wrap(TimeBinding(c, id), Native(o));
    forall t': TimeTracker.Tracker, env': Env
      ensures CountsOnce(f, id, args, host, host.cost(o, args), t', env')
    {
      TimedCall(c, id, o, args, host, t', env');
    }
    RepeatedCalls(f, id, args, host, host.cost(o, args), t, env, n);
  }

  /** A call of `f` that returns and adds one iteration and `k` ticks to
      `id`'s record. */
  predicate CountsOnce(f: Fn, id: string, args: seq<Val>, host: Host, k: int, t: TimeTracker.Tracker, env: Env) {
    var r := Call(f, args, host, t, env);
    && r.Returned?
    && TimeTracker.Prior(r.tracker, id)
       == TimeTracker.Record(TimeTracker.Prior(t, id).iterationsRun + 1,
                             TimeTracker.Plus(TimeTracker.Prior(t, id).totalTime, TimeTracker.Ticks(k)))
  }

  lemma {:induction false} RepeatedCalls(f: Fn, id: string, args: seq<Val>, host: Host, k: int,
                                         t: TimeTracker.Tracker, env: Env, n: nat)
    requires forall t', env' :: CountsOnce(f, id, args, host, k, t', env')
    ensures CallRepeatedly(f, args, host, t, env, n).Some?
    ensures TimeTracker.Prior(CallRepeatedly(f, args, host, t, env, n).value.0, id)
            == TimeTracker.Record(TimeTracker.Prior(t, id).iterationsRun + n,
                                  TimeTracker.Plus(TimeTracker.Prior(t, id).totalTime, TimeTracker.Ticks(n * k)))
    decreases n
  {
    if n > 0 {
      assert CountsOnce(f, id, args, host, k, t, env);
      var r := Call(f, args, host, t, env);
      assert CallRepeatedly(f, args, host, t, env, n) == CallRepeatedly(f, args, host, r.tracker, r.env, n - 1);
      RepeatedCalls(f, id, args, host, k, r.tracker, r.env, n - 1);
      TimeTracker.PlusTicks(TimeTracker.Prior(t, id).totalTime, k, (n - 1) * k);
      TimeTracker.MulStep(n, k);
    }
  }

  /** The interceptor's report (`getReport`). */
  function GetReport(ic: Interceptor): (rep: map<string, TimeTracker.ReportEntry>)
    ensures rep.Keys == TimeTracker.Recorded(ic.tracker)
    ensures forall x :: x in rep ==> rep[x].iterationsRun == TimeTracker.Prior(ic.tracker, x).iterationsRun
    ensures forall x :: x in rep ==> rep[x].totalTime == TimeTracker.Prior(ic.tracker, x).totalTime
  {
    TimeTracker.Report(ic.tracker)
  }
}

=== FILE: runner.dfy ===
/** The benchmark runner: each configured entry is run `iterations` times
    between a start and an end of the accumulator, under a display name, and
    credited `iterations` iterations. Totals accumulate across runs. */
module Runner {
  import opened Values
  import TimeTracker

  /** A `functions` entry as `run` reads it: its `name` property ("" when it
      is absent or falsy), its `fn` property, and the host function the entry
      itself is, when it is one. */
  datatype Entry = Entry(name: string, fn: Option<nat>, callable: Option<nat>)

  datatype Runner = Runner(functions: seq<Entry>, iterations: int, log: bool, profile: bool,
                           tracker: TimeTracker.Tracker)

  /** The optional settings of the constructor's config. */
  datatype Options = Options(iterations: Option<int>, log: Option<bool>, profile: Option<bool>)

  /** The class defaults: 10 iterations, no console timing, no profiling. */
  const DefaultIterations: int := 10

  function New(functions: seq<Entry>, opts: Options): (r: Runner)
    ensures r.functions == functions
    ensures opts.iterations.None? ==> r.iterations == 10
    ensures opts.iterations.Some? ==> r.iterations == opts.iterations.value
    ensures r.log <==> opts.log == Some(true)
    ensures r.profile <==> opts.profile == Some(true)
    ensures TimeTracker.Report(r.tracker) == map[]
  {
    Runner(functions,
           if opts.iterations.Some? then opts.iterations.value else DefaultIterations,
           opts.log == Some(true),
           opts.profile == Some(true),
           TimeTracker.Fresh)
  }

  /** `setIterations`: changes the iteration count and nothing else. */
  function SetIterations(r: Runner, n: int): (r': Runner)
    ensures r'.iterations == n
    ensures r'.functions == r.functions && r'.log == r.log && r'.profile == r.profile
    ensures r'.tracker == r.tracker
  {
    r.(iterations := n)
  }

  /** `setLog`: changes the console-timing flag and nothing else. */
  function SetLog(r: Runner, log: bool): (r': Runner)
    ensures r'.log == log
    ensures r'.functions == r.functions && r'.iterations == r.iterations && r'.profile == r.profile
    ensures r'.tracker == r.tracker
  {
    r.(log := log)
  }

  /** `setProfile`: changes the profiling flag and nothing else. */
  function SetProfile(r: Runner, profile: bool): (r': Runner)
    ensures r'.profile == profile
    ensures r'.functions == r.functions && r'.iterations == r.iterations && r'.log == r.log
    ensures r'.tracker == r.tracker
  {
    r.(profile := profile)
  }

  /** The name an entry is reported under: its own name when it has one,
      otherwise "index:" and its position. */
  function DisplayName(e: Entry, i: nat): (name: string)
    ensures e.name != "" ==> name == e.name
    ensures e.name == "" ==> name == "index:" + Decimal(i)
  {
    if e.name != "" then e.name else "index:" + Decimal(i)
  }

  /** What `run` calls for an entry: with a name, its `fn` or else the entry
      itself; without one, the entry itself. None when that is not callable. */
  function Target(e: Entry): (f: Option<nat>)
    ensures e.name != "" && e.fn.Some? ==> f == e.fn
    ensures e.name == "" || e.fn.None? ==> f == e.callable
  {
    if e.name != "" && e.fn.Some? then e.fn else e.callable
  }

  /** Unnamed entries at different positions are reported under different
      names. */
  lemma UnnamedDistinct(e1: Entry, i: nat, e2: Entry, j: nat)
    requires e1.name == "" && e2.name == ""
    requires i != j
    ensures DisplayName(e1, i) != DisplayName(e2, j)
  {
    SuffixedDistinct("index", "index", ':', i, j);
    assert "index:" + Decimal(i) == "index" + [':'] + Decimal(i);
    assert "index:" + Decimal(j) == "index" + [':'] + Decimal(j);
  }

  /** `_runFunctionForIterations`: calls `fn` with no arguments, `n` times in
      a row; None when it is not callable and the first call throws. */
  function RunForIterations(fn: Option<nat>, n: int, host: Host, env: Env): (r: Option<Env>)
    ensures r.None? <==> n > 0 && fn.None?
    ensures r.Some? ==> r.value.now >= env.now && env.trace <= r.value.trace
    decreases if n < 0 then 0 else n
  {
    if n <= 0 then Some(env)
    else
      match fn
      case None => None
      case Some(f) => RunForIterations(fn, n - 1, host, RunHost(host, f, [], env))
  }

  /** `n` runs of cost `c` each, in ticks; nothing when `n` is not
      positive. */
  function Times(n: int, c: nat): nat
    decreases if n < 0 then 0 else n
  {
    if n <= 0 then 0 else c + Times(n - 1, c)
  }

  lemma {:induction false} TimesIsProduct(n: int, c: nat)
    requires n >= 0
    ensures Times(n, c) == n * c
    decreases n
  {
    if n > 0 {
      TimesIsProduct(n - 1, c);
      TimeTracker.MulStep(n, c);
    }
  }

  /** The loop calls the function exactly `n` times (none when `n` is not
      positive, even if nothing is callable), and the clock advances by `n`
      times its cost. */
  lemma {:induction false} RunForIterationsCalls(fn: Option<nat>, n: int, host: Host, env: Env)
    ensures n <= 0 ==> RunForIterations(fn, n, host, env) == Some(env)
    ensures n > 0 && fn.None? ==> RunForIterations(fn, n, host, env).None?
    ensures n > 0 && fn.Some? ==>
              RunForIterations(fn, n, host, env)
              == Some(Env(env.now + Times(n, host.cost(fn.value, [])), env.trace + Repeat(Invoked(fn.value, []), n)))
    decreases if n < 0 then 0 else n
  {
    if n > 0 && fn.Some? {
      var f := fn.value;
      var c := host.cost(f, []);
      var env1 := RunHost(host, f, [], env);
      var rest := RunForIterations(fn, n - 1, host, env1);
      assert RunForIterations(fn, n, host, env) == rest;
      RunForIterationsCalls(fn, n - 1, host, env1);
      assert rest.Some? && rest.value.now == env1.now + Times(n - 1, c);
      assert Repeat(Invoked(f, []), n) == [Invoked(f, [])] + Repeat(Invoked(f, []), n - 1);
      assert rest.value.trace == env.trace + Repeat(Invoked(f, []), n);
    }
  }

  /** The state after one entry: the accumulator and clock, and whether the
      entry finished. */
  datatype Step = Step(tracker: TimeTracker.Tracker, env: Env, completed: bool)

  /** `_runFunction`: start, the loop, end with `iterations` to add. When
      the loop throws the start stays recorded and no end happens. */
  function RunFunction(r: Runner, fn: Option<nat>, name: string, host: Host, env: Env): (st: Step)
    ensures st.completed <==> r.iterations <= 0 || fn.Some?
    ensures st.tracker.Live? && name in st.tracker.stamps
    ensures TimeTracker.Recorded(st.tracker)
              == TimeTracker.Recorded(r.tracker) + (if st.completed then {name} else {})
    ensures st.env.now >= env.now && env.trace <= st.env.trace
  {
    var (t1, e1) := TimeTracker.Start(r.tracker, name, r.log, r.profile, env);
    match RunForIterations(fn, r.iterations, host, e1)
    case None => Step(t1, e1, false)
    case Some(e2) =>
      var ended := TimeTracker.End(t1, name, r.log, r.profile, r.iterations, e2).value;
      Step(ended.0, ended.1, true)
  }

  /** The events one entry produces when it finishes. */
  function EntryTrace(r: Runner, i: nat): seq<Event>
    requires i < |r.functions|
  {
    var e := r.functions[i];
    var name := DisplayName(e, i);
    TimeTracker.StartEvents(name, r.log, r.profile)
    + (if r.iterations > 0 && Target(e).Some? then Repeat(Invoked(Target(e).value, []), r.iterations) else [])
    + TimeTracker.EndEvents(name, r.log, r.profile)
  }

  /** The ticks one entry takes. */
  function EntryTicks(r: Runner, i: nat, host: Host): nat
    requires i < |r.functions|
  {
    var f := Target(r.functions[i]);
    if r.iterations > 0 && f.Some? then Times(r.iterations, host.cost(f.value, [])) else 0
  }

  /** One entry whose target can be called (or that is run zero times),
      in closed form: it finishes, the accumulator has seen one start/end
      pair on its name spanning the entry's ticks, and the console and host
      see exactly its start, its calls and its end. */
  lemma StepClosed(r: Runner, i: nat, host: Host, env: Env)
    requires i < |r.functions|
    requires r.iterations <= 0 || Target(r.functions[i]).Some?
    ensures var name := DisplayName(r.functions[i], i);
            var ticks := EntryTicks(r, i, host);
            RunFunction(r, Target(r.functions[i]), name, host, env)
            == Step(TimeTracker.Cycle(r.tracker, name, env.now, env.now + ticks, r.iterations),
                    Env(env.now + ticks, env.trace + EntryTrace(r, i)), true)
  {
    var e := r.functions[i];
    var name := DisplayName(e, i);
    var fn := Target(e);
    var ticks := EntryTicks(r, i, host);
    var start := TimeTracker.StartEvents(name, r.log, r.profile);
    var calls := if r.iterations > 0 && fn.Some? then Repeat(Invoked(fn.value, []), r.iterations) else [];
    var end := TimeTracker.EndEvents(name, r.log, r.profile);
    var t1 := TimeTracker.StampStart(r.tracker, name, env.now);
    var e1 := Emit(env, start);
    var e2 := Env(env.now + ticks, env.trace + start + calls);
    var t2 := TimeTracker.Cycle(r.tracker, name, env.now, env.now + ticks, r.iterations);
    var e3 := Env(env.now + ticks, env.trace + EntryTrace(r, i));
    assert TimeTracker.Start(r.tracker, name, r.log, r.profile, env) == (t1, e1);
    assert RunForIterations(fn, r.iterations, host, e1) == Some(e2) by {
      RunForIterationsCalls(fn, r.iterations, host, e1);
      if r.iterations > 0 {
        assert ticks == Times(r.iterations, host.cost(fn.value, []));
      } else {
        assert ticks == 0 && calls == [];
        assert env.trace + start + calls == e1.trace;
      }
    }
    assert TimeTracker.End(t1, name, r.log, r.profile, r.iterations, e2) == Some((t2, e3)) by {
      assert TimeTracker.StampEnd(t1, name, e2.now, r.iterations).value == t2;
      assert EntryTrace(r, i) == start + calls + end;
      Regroup(env.trace, start, calls, end);
    }
  }

  lemma RegroupThree(a: seq<Event>, b: seq<Event>, c: seq<Event>)
    ensures a + b + c == a + (b + c)
  {
  }

  lemma Regroup(a: seq<Event>, b: seq<Event>, c: seq<Event>, d: seq<Event>)
    ensures a + b + c + d == a + (b + c + d)
  {
  }

  /** The same entry, as the accumulator sees it: its name gains exactly
      `iterations` iterations and the ticks its calls took, and nothing else
      is credited. */
  lemma RunFunctionEffect(r: Runner, i: nat, host: Host, env: Env)
    requires i < |r.functions|
    requires r.iterations <= 0 || Target(r.functions[i]).Some?
    ensures var name := DisplayName(r.functions[i], i);
            var st := RunFunction(r, Target(r.functions[i]), name, host, env);
            && st.completed
            && TimeTracker.Prior(st.tracker, name)
               == TimeTracker.Record(TimeTracker.Prior(r.tracker, name).iterationsRun + r.iterations,
                                     TimeTracker.Plus(TimeTracker.Prior(r.tracker, name).totalTime,
                                                      TimeTracker.Ticks(EntryTicks(r, i, host))))
            && TimeTracker.Recorded(st.tracker) == TimeTracker.Recorded(r.tracker) + {name}
            && (forall x :: x != name ==> TimeTracker.Prior(st.tracker, x) == TimeTracker.Prior(r.tracker, x))
            && st.env.trace == env.trace + EntryTrace(r, i)
  {
    var name := DisplayName(r.functions[i], i);
    StepClosed(r, i, host, env);
    CycleStepEffect(r, name, EntryTicks(r, i, host), env, EntryTrace(r, i),
                    RunFunction(r, Target(r.functions[i]), name, host, env));
  }

  /** What a closed-form step tells the accumulator, for any step of that
      shape. */
  lemma CycleStepEffect(r: Runner, name: string, ticks: nat, env: Env, events: seq<Event>, st: Step)
    requires st == Step(TimeTracker.Cycle(r.tracker, name, env.now, env.now + ticks, r.iterations),
                        Env(env.now + ticks, env.trace + events), true)
    ensures st.completed
    ensures TimeTracker.Prior(st.tracker, name)
            == TimeTracker.Record(TimeTracker.Prior(r.tracker, name).iterationsRun + r.iterations,
                                  TimeTracker.Plus(TimeTracker.Prior(r.tracker, name).totalTime,
                                                   TimeTracker.Ticks(ticks)))
    ensures TimeTracker.Recorded(st.tracker) == TimeTracker.Recorded(r.tracker) + {name}
    ensures forall x :: x != name ==> TimeTracker.Prior(st.tracker, x) == TimeTracker.Prior(r.tracker, x)
    ensures st.env.trace == env.trace + events
  {
    TimeTracker.CycleAccumulates(r.tracker, name, env.now, env.now + ticks, r.iterations);
  }

  /** Processes the entries from position `i` on. */
  datatype RunResult = RunResult(tracker: TimeTracker.Tracker, env: Env, abortedAt: Option<nat>)

  function RunFrom(r: Runner, i: nat, host: Host, env: Env): (res: RunResult)
    ensures res.abortedAt.Some? ==>
              i <= res.abortedAt.value < |r.functions| && r.iterations > 0
              && Target(r.functions[res.abortedAt.value]).None?
    ensures res.abortedAt.None? ==> r.iterations <= 0 || CallableFrom(r.functions, i)
    ensures res.env.now >= env.now && env.trace <= res.env.trace
    decreases |r.functions| - i
  {
    if i >= |r.functions| then RunResult(r.tracker, env, None)
    else
      var e := r.functions[i];
      var st := RunFunction(r, Target(e), DisplayName(e, i), host, env);
      if !st.completed then RunResult(st.tracker, st.env, Some(i))
      else RunFrom(r.(tracker := st.tracker), i + 1, host, st.env)
  }

  /** `run`: the entries in configured order. Returns the runner with its
      accumulated totals, the clock and console, and the position of the
      entry whose call threw, if one did (later entries are not run). */
  function Run(r: Runner, host: Host, env: Env): (res: (Runner, Env, Option<nat>))
    ensures res.0 == r.(tracker := res.0.tracker)
    ensures res.2.None? <==> r.iterations <= 0 || CallableFrom(r.functions, 0)
    ensures res.2.Some? ==>
              res.2.value < |r.functions| && Target(r.functions[res.2.value]).None?
    ensures res.1.now >= env.now && env.trace <= res.1.trace
  {
    var res := RunFrom(r, 0, host, env);
    (r.(tracker := res.tracker), res.env, res.abortedAt)
  }

  /** The names of all entries, in order. */
  function Names(fs: seq<Entry>): (names: seq<string>)
    ensures |names| == |fs|
    ensures forall i :: 0 <= i < |fs| ==> names[i] == DisplayName(fs[i], i)
  {
    seq(|fs|, i requires 0 <= i < |fs| => DisplayName(fs[i], i))
  }

  /** How often `x` occurs in `s`. */
  function Count(s: seq<string>, x: string): nat
    decreases |s|
  {
    if |s| == 0 then 0 else (if s[0] == x then 1 else 0) + Count(s[1..], x)
  }

  /** Whether every entry from `i` on can be called. */
  predicate CallableFrom(fs: seq<Entry>, i: nat) {
    forall j :: i <= j < |fs| ==> Target(fs[j]).Some?
  }

  /** Where a run from `i` stops: the first entry from `i` on that cannot be
      called, when the entries are called at all. */
  function StopsAt(r: Runner, i: nat): (k: nat)
    requires i <= |r.functions|
    ensures i <= k <= |r.functions|
    ensures r.iterations > 0 ==> forall j :: i <= j < k ==> Target(r.functions[j]).Some?
    ensures k < |r.functions| ==> r.iterations > 0 && Target(r.functions[k]).None?
    ensures k == |r.functions| <==> r.iterations <= 0 || CallableFrom(r.functions, i)
    decreases |r.functions| - i
  {
    if i == |r.functions| || r.iterations <= 0 then |r.functions|
    else if Target(r.functions[i]).None? then i
    else StopsAt(r, i + 1)
  }

  lemma {:induction false} CountCons(s: seq<string>, i: nat, k: nat, x: string)
    requires i < k <= |s|
    ensures Count(s[i..k], x) == (if s[i] == x then 1 else 0) + Count(s[i + 1..k], x)
  {
    assert s[i..k][1..] == s[i + 1..k];
  }

  /** The start an entry that is called but cannot be leaves behind. */
  function Aborted(r: Runner, i: nat, env: Env): (res: RunResult)
    requires i < |r.functions|
    ensures res.abortedAt == Some(i)
    ensures TimeTracker.Recorded(res.tracker) == TimeTracker.Recorded(r.tracker)
    ensures forall x :: TimeTracker.Prior(res.tracker, x) == TimeTracker.Prior(r.tracker, x)
  {
    var name := DisplayName(r.functions[i], i);
    RunResult(TimeTracker.StampStart(r.tracker, name, env.now),
              Emit(env, TimeTracker.StartEvents(name, r.log, r.profile)), Some(i))
  }

  /** An entry that is called but cannot be: the run stops there, having
      only started it. */
  lemma AbortStep(r: Runner, i: nat, host: Host, env: Env)
    requires i < |r.functions|
    requires r.iterations > 0 && Target(r.functions[i]).None?
    ensures RunFrom(r, i, host, env) == Aborted(r, i, env)
  {
    var e := r.functions[i];
    var name := DisplayName(e, i);
    var e1 := Emit(env, TimeTracker.StartEvents(name, r.log, r.profile));
    RunForIterationsCalls(Target(e), r.iterations, host, e1);
  }

  /** The runner after entry `i` finished: one more start/end pair on its
      name. */
  function After(r: Runner, i: nat, host: Host, env: Env): (r': Runner)
    requires i < |r.functions|
    ensures r'.functions == r.functions && r'.iterations == r.iterations
    ensures r'.log == r.log && r'.profile == r.profile
  {
    var ticks := EntryTicks(r, i, host);
    r.(tracker := TimeTracker.Cycle(r.tracker, DisplayName(r.functions[i], i), env.now, env.now + ticks, r.iterations))
  }

  /** The clock and console after entry `i` finished. */
  function AfterEnv(r: Runner, i: nat, host: Host, env: Env): (env': Env)
    requires i < |r.functions|
    ensures env'.now == env.now + EntryTicks(r, i, host)
    ensures env'.trace == env.trace + EntryTrace(r, i)
  {
    Env(env.now + EntryTicks(r, i, host), env.trace + EntryTrace(r, i))
  }

  /** An entry that finishes: the run continues from the next entry. */
  lemma ContinueStep(r: Runner, i: nat, host: Host, env: Env)
    requires i < |r.functions|
    requires r.iterations <= 0 || Target(r.functions[i]).Some?
    ensures RunFrom(r, i, host, env) == RunFrom(After(r, i, host, env), i + 1, host, AfterEnv(r, i, host, env))
  {
    var st := RunFunction(r, Target(r.functions[i]), DisplayName(r.functions[i], i), host, env);
    StepClosed(r, i, host, env);
    assert r.(tracker := st.tracker) == After(r, i, host, env);
    assert st.env == AfterEnv(r, i, host, env);
    assert RunFrom(r, i, host, env) == RunFrom(r.(tracker := st.tracker), i + 1, host, st.env);
  }

  /** What one finished entry does to the record of name `x`. */
  lemma StepCredit(r: Runner, i: nat, host: Host, env: Env, x: string)
    requires i < |r.functions|
    ensures var name := DisplayName(r.functions[i], i);
            var t' := After(r, i, host, env).tracker;
            && TimeTracker.Prior(t', x).iterationsRun
               == TimeTracker.Prior(r.tracker, x).iterationsRun + (if name == x then r.iterations else 0)
            && (x in TimeTracker.Recorded(t') <==> x in TimeTracker.Recorded(r.tracker) || x == name)
  {
    var name := DisplayName(r.functions[i], i);
    var ticks := EntryTicks(r, i, host);
    TimeTracker.CycleAccumulates(r.tracker, name, env.now, env.now + ticks, r.iterations);
  }

  /** A reference for `RunFrom` in closed form: each entry that finishes
      is one start/end pair on its name (`After`), and the first entry that
      is called but cannot be leaves only its start (`Aborted`). */
  function Planned(r: Runner, i: nat, host: Host, env: Env): RunResult
    requires i <= |r.functions|
    decreases |r.functions| - i
  {
    if i == |r.functions| then RunResult(r.tracker, env, None)
    else if r.iterations > 0 && Target(r.functions[i]).None? then Aborted(r, i, env)
    else Planned(After(r, i, host, env), i + 1, host, AfterEnv(r, i, host, env))
  }

  /** One finished entry: the reference run continues from the next one. */
  lemma PlannedStep(r: Runner, i: nat, host: Host, env: Env)
    requires i < |r.functions|
    requires r.iterations <= 0 || Target(r.functions[i]).Some?
    ensures Planned(r, i, host, env) == Planned(After(r, i, host, env), i + 1, host, AfterEnv(r, i, host, env))
  { }

  /** The run from `i` is the closed-form one. */
  lemma {:induction false} RunFromIsPlanned(r: Runner, i: nat, host: Host, env: Env)
    requires i <= |r.functions|
    ensures RunFrom(r, i, host, env) == Planned(r, i, host, env)
    decreases |r.functions| - i
  {
    if i == |r.functions| {
      assert RunFrom(r, i, host, env) == RunResult(r.tracker, env, None);
    } else if r.iterations > 0 && Target(r.functions[i]).None? {
      AbortStep(r, i, host, env);
      assert Planned(r, i, host, env) == Aborted(r, i, env);
    } else {
      var r1, env1 := After(r, i, host, env), AfterEnv(r, i, host, env);
      ContinueStep(r, i, host, env);
      RunFromIsPlanned(r1, i + 1, host, env1);
      PlannedStep(r, i, host, env);
    }
  }

  /** A run from `i` stops exactly at the first uncallable entry, and never
      when nothing is called. */
  lemma {:induction false} PlannedStops(r: Runner, i: nat, host: Host, env: Env)
    requires i <= |r.functions|
    ensures Planned(r, i, host, env).abortedAt.None? <==> StopsAt(r, i) == |r.functions|
    ensures Planned(r, i, host, env).abortedAt.Some? ==> Planned(r, i, host, env).abortedAt.value == StopsAt(r, i)
    decreases |r.functions| - i
  {
    if i == |r.functions| {
      assert Planned(r, i, host, env).abortedAt.None?;
    } else if r.iterations > 0 && Target(r.functions[i]).None? {
      assert StopsAt(r, i) == i;
      assert Planned(r, i, host, env) == Aborted(r, i, env);
    } else {
      var r1, env1 := After(r, i, host, env), AfterEnv(r, i, host, env);
      PlannedStep(r, i, host, env);
      StopsAtAfter(r, i, host, env);
      PlannedStops(r1, i + 1, host, env1);
    }
  }

  /** `per` for each occurrence of `x` among `s[i]`, ..., `s[k - 1]`. */
  function Credit(s: seq<string>, i: nat, k: nat, x: string, per: int): int
    requires i <= k <= |s|
    decreases k - i
  {
    if i == k then 0 else (if s[i] == x then per else 0) + Credit(s, i + 1, k, x, per)
  }

  lemma {:induction false} CreditIsProduct(s: seq<string>, i: nat, k: nat, x: string, per: int)
    requires i <= k <= |s|
    ensures Credit(s, i, k, x, per) == per * Count(s[i..k], x)
    decreases k - i
  {
    if i < k {
      CreditIsProduct(s, i + 1, k, x, per);
      CountCons(s, i, k, x);
      MulAdd(per, if s[i] == x then 1 else 0, Count(s[i + 1..k], x));
    } else {
      assert s[i..k] == [];
    }
  }

  /** Finishing entry `i` does not move the stopping point of the rest of the run. */
  lemma StopsAtAfter(r: Runner, i: nat, host: Host, env: Env)
    requires i < |r.functions|
    requires r.iterations <= 0 || Target(r.functions[i]).Some?
    ensures StopsAt(After(r, i, host, env), i + 1) == StopsAt(r, i)
  {
    var r1 := After(r, i, host, env);
    assert r1.functions == r.functions && r1.iterations == r.iterations;
  }

  /** The iterations a run from `i` credits to `x`: `iterations` for every
      entry reported under `x` before the stopping point. */
  lemma {:induction false} PlannedIterations(r: Runner, i: nat, host: Host, env: Env, x: string)
    requires i <= |r.functions|
    ensures TimeTracker.Prior(Planned(r, i, host, env).tracker, x).iterationsRun
            == TimeTracker.Prior(r.tracker, x).iterationsRun
               + Credit(Names(r.functions), i, StopsAt(r, i), x, r.iterations)
    decreases |r.functions| - i
  {
    var k := StopsAt(r, i);
    var names := Names(r.functions);
    if i == |r.functions| {
      assert Planned(r, i, host, env).tracker == r.tracker;
      assert Credit(names, i, k, x, r.iterations) == 0;
    } else if r.iterations > 0 && Target(r.functions[i]).None? {
      assert k == i;
      assert Planned(r, i, host, env) == Aborted(r, i, env);
      assert Credit(names, i, k, x, r.iterations) == 0;
    } else {
      var r1, env1 := After(r, i, host, env), AfterEnv(r, i, host, env);
      assert Names(r1.functions) == names && r1.iterations == r.iterations;
      assert StopsAt(r1, i + 1) == k by { StopsAtAfter(r, i, host, env); }
      IterationsStep(r, i, host, env, x);
      PlannedIterations(r1, i + 1, host, env1, x);
    }
  }



  /** One finished entry keeps the difference between a name's planned
      iterations and the credit still to come: the entry's own credit moves
      from the credit into the record. */
  lemma IterationsStep(r: Runner, i: nat, host: Host, env: Env, x: string)
    requires i < |r.functions|
    requires r.iterations <= 0 || Target(r.functions[i]).Some?
    ensures var r1, env1 := After(r, i, host, env), AfterEnv(r, i, host, env);
            Planned(r, i, host, env).tracker == Planned(r1, i + 1, host, env1).tracker
    ensures var r1 := After(r, i, host, env);
            TimeTracker.Prior(r.tracker, x).iterationsRun
              + Credit(Names(r.functions), i, StopsAt(r, i), x, r.iterations)
            == TimeTracker.Prior(r1.tracker, x).iterationsRun
              + Credit(Names(r1.functions), i + 1, StopsAt(r1, i + 1), x, r1.iterations)
  {
    var names := Names(r.functions);
    var k := StopsAt(r, i);
    StopsAtAfter(r, i, host, env);
    StepCredit(r, i, host, env, x);
    assert names[i] == DisplayName(r.functions[i], i);
    assert i < k;
    PlannedStep(r, i, host, env);
  }

  /** A name with no record and no entry before the stopping point is still
      unrecorded after the run. */
  lemma {:induction false} PlannedUnrecorded(r: Runner, i: nat, host: Host, env: Env, x: string)
    requires i <= |r.functions|
    requires Count(Names(r.functions)[i..StopsAt(r, i)], x) == 0 && x !in TimeTracker.Recorded(r.tracker)
    ensures x !in TimeTracker.Recorded(Planned(r, i, host, env).tracker)
    decreases |r.functions| - i
  {
    var names := Names(r.functions);
    var k := StopsAt(r, i);
    if i == |r.functions| || (r.iterations > 0 && Target(r.functions[i]).None?) {
    } else {
      var r1 := After(r, i, host, env);
      StepCredit(r, i, host, env, x);
      StopsAtAfter(r, i, host, env);
      assert names[i] == DisplayName(r.functions[i], i);
      CountCons(names, i, k, x);
      PlannedUnrecorded(r1, i + 1, host, AfterEnv(r, i, host, env), x);
      PlannedStep(r, i, host, env);
    }
  }

  /** A run from `i` credits name `x` `iterations` times for each entry
      before the stopping point that is reported under `x`; a name no such
      entry has and that had no record gets none. */
  lemma PlannedCredit(r: Runner, i: nat, host: Host, env: Env, x: string)
    requires i <= |r.functions|
    ensures TimeTracker.Prior(Planned(r, i, host, env).tracker, x).iterationsRun
            == TimeTracker.Prior(r.tracker, x).iterationsRun
               + Credit(Names(r.functions), i, StopsAt(r, i), x, r.iterations)
    ensures Count(Names(r.functions)[i..StopsAt(r, i)], x) == 0 && x !in TimeTracker.Recorded(r.tracker)
            ==> x !in TimeTracker.Recorded(Planned(r, i, host, env).tracker)
  {
    PlannedIterations(r, i, host, env, x);
    if Count(Names(r.functions)[i..StopsAt(r, i)], x) == 0 && x !in TimeTracker.Recorded(r.tracker) {
      PlannedUnrecorded(r, i, host, env, x);
    }
  }

  lemma MulAdd(a: int, b: int, c: int)
    ensures a * (b + c) == a * b + a * c
  {
  }

  /** Both of the above, for every name. */
  lemma RunFromCounts(r: Runner, i: nat, host: Host, env: Env)
    requires i <= |r.functions|
    ensures var k := StopsAt(r, i);
            var res := RunFrom(r, i, host, env);
            && (res.abortedAt.None? <==> k == |r.functions|)
            && (res.abortedAt.Some? ==> res.abortedAt.value == k)
            && (forall x :: TimeTracker.Prior(res.tracker, x).iterationsRun
                            == TimeTracker.Prior(r.tracker, x).iterationsRun
                               + r.iterations * Count(Names(r.functions)[i..k], x))
            && (forall x :: Count(Names(r.functions)[i..k], x) == 0 && x !in TimeTracker.Recorded(r.tracker)
                            ==> x !in TimeTracker.Recorded(res.tracker))
  {
    RunFromIsPlanned(r, i, host, env);
    PlannedStops(r, i, host, env);
    forall x
      ensures TimeTracker.Prior(RunFrom(r, i, host, env).tracker, x).iterationsRun
              == TimeTracker.Prior(r.tracker, x).iterationsRun
                 + r.iterations * Count(Names(r.functions)[i..StopsAt(r, i)], x)
      ensures Count(Names(r.functions)[i..StopsAt(r, i)], x) == 0 && x !in TimeTracker.Recorded(r.tracker)
              ==> x !in TimeTracker.Recorded(RunFrom(r, i, host, env).tracker)
    {
      PlannedCredit(r, i, host, env, x);
      CreditIsProduct(Names(r.functions), i, StopsAt(r, i), x, r.iterations);
    }
  }

  /** The events of the entries from `i` up to `k`. */
  function TraceOf(r: Runner, i: nat, k: nat): seq<Event>
    requires i <= k <= |r.functions|
    decreases k - i
  {
    if i == k then [] else EntryTrace(r, i) + TraceOf(r, i + 1, k)
  }

  /** A completed run shows, entry by entry in configured order, the start,
      exactly `iterations` calls of the entry's function, and the end. */
  lemma {:induction false} PlannedTrace(r: Runner, i: nat, host: Host, env: Env)
    requires i <= |r.functions|
    requires r.iterations <= 0 || CallableFrom(r.functions, i)
    ensures Planned(r, i, host, env).abortedAt.None?
    ensures Planned(r, i, host, env).env.trace == env.trace + TraceOf(r, i, |r.functions|)
    decreases |r.functions| - i
  {
    if i < |r.functions| {
      var n := |r.functions|;
      var r1 := After(r, i, host, env);
      var env1 := AfterEnv(r, i, host, env);
      assert CallableFrom(r.functions, i) ==> CallableFrom(r1.functions, i + 1);
      PlannedStep(r, i, host, env);
      PlannedTrace(r1, i + 1, host, env1);
      TraceOfFrame(r, r1, i + 1, n);
      var rest := TraceOf(r, i + 1, n);
      assert TraceOf(r, i, n) == EntryTrace(r, i) + rest;
      RegroupThree(env.trace, EntryTrace(r, i), rest);
    }
  }

  lemma {:induction false} TraceOfFrame(r: Runner, r1: Runner, i: nat, k: nat)
    requires i <= k <= |r.functions|
    requires r1 == r.(tracker := r1.tracker)
    ensures TraceOf(r1, i, k) == TraceOf(r, i, k)
    decreases k - i
  {
    if i < k {
      TraceOfFrame(r, r1, i + 1, k);
    }
  }

  /** `run` credits each reported name `iterations` times per entry under
      it when every entry can be called; entries are run in order and each
      function is called exactly `iterations` times. */
  lemma RunCredits(r: Runner, host: Host, env: Env)
    requires r.iterations <= 0 || CallableFrom(r.functions, 0)
    ensures Run(r, host, env).2.None?
    ensures forall x :: TimeTracker.Prior(Run(r, host, env).0.tracker, x).iterationsRun
                        == TimeTracker.Prior(r.tracker, x).iterationsRun + r.iterations * Count(Names(r.functions), x)
    ensures Run(r, host, env).1.trace == env.trace + TraceOf(r, 0, |r.functions|)
    ensures Run(r, host, env).0.iterations == r.iterations && Run(r, host, env).0.functions == r.functions
  {
    RunFromCounts(r, 0, host, env);
    RunFromIsPlanned(r, 0, host, env);
    PlannedTrace(r, 0, host, env);
    assert Names(r.functions)[0..|r.functions|] == Names(r.functions);
  }

  /** With no entries, `run` changes nothing and the report stays as it was. */
  lemma RunEmpty(r: Runner, host: Host, env: Env)
    requires r.functions == []
    ensures Run(r, host, env) == (r, env, None)
  {
  }

  /** Totals accumulate across runs: running with `a` iterations and then
      with `b` credits each name `a + b` times per entry under it. */
  lemma RunsAccumulate(r: Runner, a: int, b: int, host: Host, env: Env)
    requires CallableFrom(r.functions, 0)
    ensures var first := Run(SetIterations(r, a), host, env);
            var second := Run(SetIterations(first.0, b), host, first.1);
            forall x :: TimeTracker.Prior(second.0.tracker, x).iterationsRun
                        == TimeTracker.Prior(r.tracker, x).iterationsRun + (a + b) * Count(Names(r.functions), x)
  {
    var first := Run(SetIterations(r, a), host, env);
    RunCredits(SetIterations(r, a), host, env);
    RunCredits(SetIterations(first.0, b), host, first.1);
    forall x ensures a * Count(Names(r.functions), x) + b * Count(Names(r.functions), x)
                     == (a + b) * Count(Names(r.functions), x) {
    }
  }

  /** A single unnamed function, set to 1000 iterations and run, then set to
      100 and run again, is reported under "index:0" with 1100 iterations.
      The entry here has no name; a function expression written directly as
      the `functions` option takes that property's name on engines from
      ECMAScript 2015 on, and would then be reported under "functions". */
  lemma ThousandThenHundred(f: nat, host: Host, env: Env)
    ensures var r := New([Entry("", None, Some(f))], Options(None, None, None));
            var first := Run(SetIterations(r, 1000), host, env);
            var second := Run(SetIterations(first.0, 100), host, first.1);
            && "index:0" in GetReport(second.0)
            && GetReport(second.0)["index:0"].iterationsRun == 1100
  {
    var r := New([Entry("", None, Some(f))], Options(None, None, None));
    UnnamedFirst(r.functions, f);
    TwoRunsOnce(r, 1000, 100, "index:0", host, env);
  }

  /** Two runs from an unstarted accumulator report a name that one
      callable entry carries, with the iterations of both runs. */
  lemma TwoRunsOnce(r: Runner, a: int, b: int, x: string, host: Host, env: Env)
    requires r.tracker == TimeTracker.Fresh && CallableFrom(r.functions, 0)
    requires Count(Names(r.functions), x) == 1
    ensures var first := Run(SetIterations(r, a), host, env);
            var second := Run(SetIterations(first.0, b), host, first.1);
            && x in GetReport(second.0)
            && GetReport(second.0)[x].iterationsRun == a + b
  {
    var first := Run(SetIterations(r, a), host, env);
    var r2 := SetIterations(first.0, b);
    var second := Run(r2, host, first.1);
    RunsAccumulate(r, a, b, host, env);
    assert TimeTracker.Prior(second.0.tracker, x).iterationsRun == a + b;
    CountMember(Names(r.functions), x);
    var j :| 0 <= j < |r.functions| && Names(r.functions)[j] == x;
    assert r2.functions == r.functions && CallableFrom(r2.functions, 0);
    RunFromRecords(r2, 0, host, first.1);
    assert x in TimeTracker.Recorded(second.0.tracker);
  }

  /** A name that is counted occurs. */
  lemma {:induction false} CountMember(s: seq<string>, x: string)
    ensures Count(s, x) > 0 ==> x in s
    decreases |s|
  {
    if |s| > 0 {
      CountMember(s[1..], x);
      assert x in s[1..] ==> x in s;
    }
  }

  /** A run loses no record and records the name of every entry it
      finishes: all entries from `i` on when it completes, and those before
      the entry whose call threw otherwise. */
  lemma {:induction false} RunFromRecords(r: Runner, i: nat, host: Host, env: Env)
    ensures var res := RunFrom(r, i, host, env);
            && TimeTracker.Recorded(r.tracker) <= TimeTracker.Recorded(res.tracker)
            && forall j :: i <= j < |r.functions| && (res.abortedAt.None? || j < res.abortedAt.value) ==>
                 DisplayName(r.functions[j], j) in TimeTracker.Recorded(res.tracker)
    decreases |r.functions| - i
  {
    if i < |r.functions| {
      var st := RunFunction(r, Target(r.functions[i]), DisplayName(r.functions[i], i), host, env);
      if st.completed {
        var r1 := r.(tracker := st.tracker);
        assert RunFrom(r, i, host, env) == RunFrom(r1, i + 1, host, st.env);
        RunFromRecords(r1, i + 1, host, st.env);
      }
    }
  }

  /** A lone unnamed entry is reported as "index:0". */
  lemma UnnamedFirst(fs: seq<Entry>, f: nat)
    requires fs == [Entry("", None, Some(f))]
    ensures Names(fs) == ["index:0"] && Count(Names(fs), "index:0") == 1
    ensures CallableFrom(fs, 0)
  {
    assert Decimal(0) == "0";
    assert DisplayName(fs[0], 0) == "index:0";
    assert Count(["index:0"], "index:0") == 1;
  }

  /** The runner's report: `getReport` comes from the accumulator it mixes
      in. (`_getIterationsToAdd`, which gives `iterations`, is modelled by
      the credit `RunFunction` records, as `StepCredit` states.) */
  function GetReport(r: Runner): (rep: map<string, TimeTracker.ReportEntry>)
    ensures rep.Keys == TimeTracker.Recorded(r.tracker)
    ensures forall x :: x in rep ==> rep[x].iterationsRun == TimeTracker.Prior(r.tracker, x).iterationsRun
    ensures forall x :: x in rep ==> rep[x].totalTime == TimeTracker.Prior(r.tracker, x).totalTime
  {
    TimeTracker.Report(r.tracker)
  }
}

=== FILE: time_tracker.dfy ===
/** The timing accumulator mixed into the interceptor and the runner: per id,
    the tick of the last start, and the iterations and time accumulated by
    completed start/end pairs. The clock is the caller's tick; the host's
    iterations-to-add is a parameter of `StampEnd`. */
module TimeTracker {
  import opened Values

  type Id = string

  /** A duration in ticks; `NaN` once an end was recorded for an id that was
      never started (`now - undefined`), and NaN absorbs every later sum. */
  datatype Elapsed = Ticks(n: int) | NaN

  function Plus(a: Elapsed, b: Elapsed): Elapsed {
    match (a, b)
    case (Ticks(x), Ticks(y)) => Ticks(x + y)
    case _ => NaN
  }

  /** One `_totalTimes` entry. */
  datatype Record = Record(iterationsRun: int, totalTime: Elapsed)

  /** `Fresh` until the first start creates both maps (`_initTimes`). */
  datatype Tracker = Fresh | Live(stamps: map<Id, nat>, totals: map<Id, Record>)

  /** The record for `id`, or the zero record `_trackTime` starts from. */
  function Prior(t: Tracker, id: Id): Record {
    if t.Live? && id in t.totals then t.totals[id] else Record(0, Ticks(0))
  }

  /** The ids that have a record. */
  function Recorded(t: Tracker): set<Id> {
    if t.Live? then t.totals.Keys else {}
  }

  /** `_initTimes`: creates the maps the first time, and only then. */
  function InitTimes(t: Tracker): (r: Tracker)
    ensures r.Live?
    ensures t.Live? ==> r == t
    ensures t.Fresh? ==> r.stamps == map[] && r.totals == map[]
  {
    if t.Fresh? then Live(map[], map[]) else t
  }

  /** `stampStart`: `id`'s start becomes `now`, replacing an unfinished
      earlier start; other starts and all accumulated totals are kept. */
  function StampStart(t: Tracker, id: Id, now: nat): (r: Tracker)
    ensures r.Live?
    ensures id in r.stamps && r.stamps[id] == now
    ensures r.totals == (if t.Live? then t.totals else map[])
  {
    var live := InitTimes(t);
    live.(stamps := live.stamps[id := now])
  }

  /** Starting `id` keeps every other id's start as it was, and adds none. */
  lemma StampStartKeeps(t: Tracker, id: Id, now: nat, x: Id)
    requires x != id
    ensures x in StampStart(t, id, now).stamps <==> t.Live? && x in t.stamps
    ensures x in StampStart(t, id, now).stamps ==> StampStart(t, id, now).stamps[x] == t.stamps[x]
  {
  }

  /** The time since `id`'s start, or NaN when it has none. */
  function Since(t: Tracker, id: Id, now: nat): Elapsed
    requires t.Live?
  {
    if id in t.stamps then Ticks(now - t.stamps[id]) else NaN
  }

  /** `stampEnd` with `_trackTime`: `k` iterations and the time since the
      start are added to `id`'s record, created at zero when absent. None when
      the tracker was never started: reading `_timeStamps[id]` throws. */
  function StampEnd(t: Tracker, id: Id, now: nat, k: int): (r: Option<Tracker>)
    ensures r.None? <==> t.Fresh?
    ensures r.Some? ==> r.value.Live? && r.value.stamps == t.stamps
    ensures r.Some? ==> id in r.value.totals
    ensures r.Some? ==> r.value.totals[id].iterationsRun == Prior(t, id).iterationsRun + k
    ensures r.Some? ==> r.value.totals[id].totalTime == Plus(Prior(t, id).totalTime, Since(t, id, now))
  {
    if t.Fresh? then None
    else
      var p := Prior(t, id);
      Some(t.(totals := t.totals[id := Record(p.iterationsRun + k, Plus(p.totalTime, Since(t, id, now)))]))
  }

  /** Ending `id` leaves every other id's record as it was. */
  lemma StampEndKeeps(t: Tracker, id: Id, now: nat, k: int, x: Id)
    requires t.Live? && x != id
    ensures x in StampEnd(t, id, now, k).value.totals <==> x in t.totals
    ensures x in t.totals ==> StampEnd(t, id, now, k).value.totals[x] == t.totals[x]
  {
  }

  /** Console output of `stampStart`: profile first, then time. */
  function StartEvents(id: Id, log: bool, profile: bool): seq<Event> {
    (if profile then [ProfileStart(id)] else []) + (if log then [TimeStart(id)] else [])
  }

  /** Console output of `stampEnd`: timeEnd first, then profileEnd. */
  function EndEvents(id: Id, log: bool, profile: bool): seq<Event> {
    (if log then [TimeEnd(id)] else []) + (if profile then [ProfileEnd(id)] else [])
  }

  /** `stampStart` against the clock and the console: the start tick is the
      current one, no record changes, and the console takes no time. */
  function Start(t: Tracker, id: Id, log: bool, profile: bool, env: Env): (r: (Tracker, Env))
    ensures r.0.Live? && id in r.0.stamps && r.0.stamps[id] == env.now
    ensures Recorded(r.0) == Recorded(t)
    ensures r.1.now == env.now && r.1.trace == env.trace + StartEvents(id, log, profile)
  {
    (StampStart(t, id, env.now), Emit(env, StartEvents(id, log, profile)))
  }

  /** `stampEnd` against the clock and the console; None when it throws,
      which is exactly when nothing was ever started. */
  function End(t: Tracker, id: Id, log: bool, profile: bool, k: int, env: Env): (r: Option<(Tracker, Env)>)
    ensures r.None? <==> t.Fresh?
    ensures r.Some? ==> Prior(r.value.0, id).iterationsRun == Prior(t, id).iterationsRun + k
    ensures r.Some? ==> Recorded(r.value.0) == Recorded(t) + {id}
    ensures r.Some? ==> r.value.1.now == env.now && r.value.1.trace == env.trace + EndEvents(id, log, profile)
  {
    match StampEnd(t, id, env.now, k)
    case None => None
    case Some(t') => Some((t', Emit(env, EndEvents(id, log, profile))))
  }

  /** The console call that closes what `e` opened. */
  function Closing(e: Event): Event {
    match e
    case ProfileStart(id) => ProfileEnd(id)
    case TimeStart(id) => TimeEnd(id)
    case _ => e
  }

  /** What `stampStart` opens first, `stampEnd` closes last: the end events
      close the start events in reverse order. */
  lemma ConsoleNests(id: Id, log: bool, profile: bool)
    ensures var st, en := StartEvents(id, log, profile), EndEvents(id, log, profile);
            |en| == |st| && forall i :: 0 <= i < |st| ==> en[i] == Closing(st[|st| - 1 - i])
  { }

  /** A report value: JavaScript division of a total time by an iteration
      count, including its NaN and infinite results. */
  datatype Average = Finite(v: real) | NotANumber | Infinity(positive: bool)

  function Divide(total: Elapsed, k: int): (r: Average)
    ensures r.Finite? <==> total.Ticks? && k != 0
    ensures r.Finite? ==> r.v * (k as real) == total.n as real
    ensures r.Infinity? <==> total.Ticks? && k == 0 && total.n != 0
    ensures r.Infinity? ==> (r.positive <==> total.n > 0)
  {
    match total
    case NaN => NotANumber
    case Ticks(n) =>
      if k != 0 then Finite(n as real / k as real)
      else if n == 0 then NotANumber
      else Infinity(n > 0)
  }

  datatype ReportEntry = ReportEntry(iterationsRun: int, totalTime: Elapsed, average: Average)

  /** `getReport`: one entry per record, copying it and adding the average.
      A tracker that never started reports nothing. */
  function Report(t: Tracker): (r: map<Id, ReportEntry>)
    ensures r.Keys == Recorded(t)
    ensures forall x :: x in r ==> r[x].iterationsRun == t.totals[x].iterationsRun
    ensures forall x :: x in r ==> r[x].totalTime == t.totals[x].totalTime
    ensures forall x :: x in r && r[x].totalTime.Ticks? && r[x].average.Finite? ==>
              r[x].average.v * (r[x].iterationsRun as real) == r[x].totalTime.n as real
    ensures forall x :: x in r ==> (r[x].average.Finite? <==> r[x].totalTime.Ticks? && r[x].iterationsRun != 0)
    ensures forall x :: x in r ==>
              (r[x].average.Infinity? <==> r[x].totalTime.Ticks? && r[x].iterationsRun == 0 && r[x].totalTime.n != 0)
    ensures forall x :: x in r && r[x].average.Infinity? ==> (r[x].average.positive <==> r[x].totalTime.n > 0)
  {
    if t.Fresh? then map[]
    else
      map x | x in t.totals ::
        ReportEntry(t.totals[x].iterationsRun, t.totals[x].totalTime,
                    Divide(t.totals[x].totalTime, t.totals[x].iterationsRun))
  }

  /** A start immediately followed, at a later reading, by an end. */
  function Cycle(t: Tracker, id: Id, start: nat, end: nat, k: int): (r: Tracker)
    ensures r.Live?
  {
    StampEnd(StampStart(t, id, start), id, end, k).value
  }

  /** Start/end pairs on one id, one per (start, end) reading. */
  function Cycles(t: Tracker, id: Id, spans: seq<(nat, nat)>, k: int): Tracker
    decreases |spans|
  {
    if |spans| == 0 then t
    else Cycles(Cycle(t, id, spans[0].0, spans[0].1, k), id, spans[1..], k)
  }

  /** The ticks the spans cover. */
  function Span(spans: seq<(nat, nat)>): int
    decreases |spans|
  {
    if |spans| == 0 then 0 else (spans[0].1 - spans[0].0) + Span(spans[1..])
  }

  /** One start/end pair on `id`: its record gains `k` iterations and the
      pair's span; nothing else is recorded or changed. */
  lemma CycleAccumulates(t: Tracker, id: Id, start: nat, end: nat, k: int)
    ensures Prior(Cycle(t, id, start, end, k), id)
            == Record(Prior(t, id).iterationsRun + k, Plus(Prior(t, id).totalTime, Ticks(end - start)))
    ensures Recorded(Cycle(t, id, start, end, k)) == Recorded(t) + {id}
    ensures forall x :: x != id ==> Prior(Cycle(t, id, start, end, k), x) == Prior(t, x)
  {
    var s := StampStart(t, id, start);
    var p := Prior(t, id);
    var rec := Record(p.iterationsRun + k, Plus(p.totalTime, Ticks(end - start)));
    assert Since(s, id, end) == Ticks(end - start);
    assert Prior(s, id) == p;
    assert Cycle(t, id, start, end, k) == s.(totals := s.totals[id := rec]);
  }

  /** After `n` start/end pairs on `id` with iterations-to-add `k`, its record
      has gained exactly `n * k` iterations and the spans' total time; other
      records are untouched, and the pairs leave `id` recorded. */
  lemma CyclesAccumulate(t: Tracker, id: Id, spans: seq<(nat, nat)>, k: int)
    ensures Prior(Cycles(t, id, spans, k), id).iterationsRun == Prior(t, id).iterationsRun + |spans| * k
    ensures Prior(Cycles(t, id, spans, k), id).totalTime == Plus(Prior(t, id).totalTime, Ticks(Span(spans)))
    ensures Recorded(Cycles(t, id, spans, k)) == Recorded(t) + (if |spans| > 0 then {id} else {})
    ensures forall x :: x != id ==> Prior(Cycles(t, id, spans, k), x) == Prior(t, x)
  {
    CyclesIterations(t, id, spans, k);
    CyclesTime(t, id, spans, k);
    CyclesFrame(t, id, spans, k);
  }

  lemma {:induction false} CyclesIterations(t: Tracker, id: Id, spans: seq<(nat, nat)>, k: int)
    ensures Prior(Cycles(t, id, spans, k), id).iterationsRun == Prior(t, id).iterationsRun + |spans| * k
    decreases |spans|
  {
    if |spans| > 0 {
      var t1 := Cycle(t, id, spans[0].0, spans[0].1, k);
      assert Cycles(t, id, spans, k) == Cycles(t1, id, spans[1..], k);
      CycleAccumulates(t, id, spans[0].0, spans[0].1, k);
      CyclesIterations(t1, id, spans[1..], k);
      MulStep(|spans|, k);
    }
  }

  lemma {:induction false} CyclesTime(t: Tracker, id: Id, spans: seq<(nat, nat)>, k: int)
    ensures Prior(Cycles(t, id, spans, k), id).totalTime == Plus(Prior(t, id).totalTime, Ticks(Span(spans)))
    decreases |spans|
  {
    if |spans| > 0 {
      var (start, end) := spans[0];
      var rest := spans[1..];
      var p := Prior(t, id).totalTime;
      var t1 := Cycle(t, id, start, end, k);
      assert Prior(t1, id).totalTime == Plus(p, Ticks(end - start)) by {
        CycleAccumulates(t, id, start, end, k);
      }
      assert Cycles(t, id, spans, k) == Cycles(t1, id, rest, k);
      assert Span(spans) == (end - start) + Span(rest);
      CyclesTime(t1, id, rest, k);
      PlusTicks(p, end - start, Span(rest));
    }
  }

  lemma {:induction false} CyclesFrame(t: Tracker, id: Id, spans: seq<(nat, nat)>, k: int)
    ensures Recorded(Cycles(t, id, spans, k)) == Recorded(t) + (if |spans| > 0 then {id} else {})
    ensures forall x :: x != id ==> Prior(Cycles(t, id, spans, k), x) == Prior(t, x)
    decreases |spans|
  {
    if |spans| > 0 {
      var t1 := Cycle(t, id, spans[0].0, spans[0].1, k);
      assert Cycles(t, id, spans, k) == Cycles(t1, id, spans[1..], k);
      CycleAccumulates(t, id, spans[0].0, spans[0].1, k);
      CyclesFrame(t1, id, spans[1..], k);
    }
  }

  lemma MulStep(n: int, k: int)
    ensures k + (n - 1) * k == n * k
  {
  }

  lemma PlusTicks(a: Elapsed, x: int, y: int)
    ensures Plus(Plus(a, Ticks(x)), Ticks(y)) == Plus(a, Ticks(x + y))
  {
  }

  /** With a monotone clock, the accumulated time of a fresh id is never
      negative. */
  lemma MonotoneClockNonNegative(t: Tracker, id: Id, spans: seq<(nat, nat)>, k: int)
    requires id !in Recorded(t)
    requires forall i :: 0 <= i < |spans| ==> spans[i].0 <= spans[i].1
    ensures Prior(Cycles(t, id, spans, k), id).iterationsRun == |spans| * k
    ensures Prior(Cycles(t, id, spans, k), id).totalTime.Ticks?
    ensures Prior(Cycles(t, id, spans, k), id).totalTime.n >= 0
  {
    CyclesAccumulate(t, id, spans, k);
    SpanNonNegative(spans);
  }

  lemma {:induction false} SpanNonNegative(spans: seq<(nat, nat)>)
    requires forall i :: 0 <= i < |spans| ==> spans[i].0 <= spans[i].1
    ensures Span(spans) >= 0
    decreases |spans|
  {
    if |spans| > 0 {
      SpanNonNegative(spans[1..]);
    }
  }
}

=== FILE: values.dfy ===
/** Values shared by the four components: the JavaScript values they pass
    around, the console output and host-code runs they cause, the host code
    itself (abstracted to what it returns and how long it takes), the clock,
    and the decimal rendering of counters used to build names. */
module Values {

  datatype Option<T> = None | Some(value: T)

  /** The JavaScript values the model passes around: call arguments, call
      results, logged messages and watched property values. Objects are known
      only by their address. */
  datatype Val = Undefined | Null | Bool(b: bool) | Num(n: int) | Str(s: string) | Ref(addr: nat)

  /** JavaScript truthiness, on the values above. */
  predicate Truthy(v: Val) {
    match v
    case Undefined => false
    case Null => false
    case Bool(b) => b
    case Num(n) => n != 0
    case Str(s) => s != ""
    case Ref(_) => true
  }

  /** What the components make observable: console output (log, time,
      timeEnd, profile, profileEnd), each run of host code with the arguments
      it was given, and each `debugger` statement reached. */
  datatype Event =
    | Log(v: Val)
    | TimeStart(id: string)
    | TimeEnd(id: string)
    | ProfileStart(id: string)
    | ProfileEnd(id: string)
    | Invoked(fn: nat, args: seq<Val>)
    | Debugger

  /** Host code (the user's functions and callbacks), known by number: what a
      call returns and how many clock ticks it takes. */
  datatype Host = Host(result: (nat, seq<Val>) -> Val, cost: (nat, seq<Val>) -> nat)

  /** The clock reading and the events observed so far. */
  datatype Env = Env(now: nat, trace: seq<Event>)

  /** Runs host function `f` on `args`: the clock advances by its cost and the
      run is recorded. */
  function RunHost(host: Host, f: nat, args: seq<Val>, env: Env): Env {
    Env(env.now + host.cost(f, args), env.trace + [Invoked(f, args)])
  }

  /** Appends console output without advancing the clock. */
  function Emit(env: Env, events: seq<Event>): Env {
    env.(trace := env.trace + events)
  }

  /** `n` copies of `e`. */
  function Repeat<T>(e: T, n: nat): (r: seq<T>)
    ensures |r| == n
    ensures forall i :: 0 <= i < n ==> r[i] == e
  {
    seq(n, _ => e)
  }

  /** A decimal digit. */
  function Digit(d: nat): (c: char)
    requires d < 10
    ensures '0' <= c <= '9'
  {
    (('0' as int) + d) as char
  }

  /** The decimal rendering of `n`, as JavaScript's string concatenation
      renders a non-negative integer. */
  function Decimal(n: nat): (s: string)
    ensures |s| >= 1
    ensures n < 10 <==> |s| == 1
    ensures forall i :: 0 <= i < |s| ==> '0' <= s[i] <= '9'
  {
    if n < 10 then [Digit(n)] else Decimal(n / 10) + [Digit(n % 10)]
  }

  /** Different numbers render differently. */
  lemma {:induction false} DecimalInjective(a: nat, b: nat)
    requires Decimal(a) == Decimal(b)
    ensures a == b
  {
    if a < 10 || b < 10 {
      assert Decimal(a)[0] == Decimal(b)[0];
    } else {
      var da, db := Decimal(a), Decimal(b);
      assert da[|da| - 1] == db[|db| - 1];
      assert Digit(a % 10) == Digit(b % 10);
      assert Decimal(a / 10) == da[..|da| - 1] == db[..|db| - 1] == Decimal(b / 10);
      DecimalInjective(a / 10, b / 10);
    }
  }

  /** `prefix` + separator + decimal rendering of `n`: the shape of the names
      built from a counter. Different counters give different names whatever
      the prefixes, as long as the separator is not a digit: the part after
      the last separator is the counter's rendering. */
  lemma SuffixedDistinct(p1: string, p2: string, sep: char, n1: nat, n2: nat)
    requires !('0' <= sep <= '9')
    requires n1 != n2
    ensures p1 + [sep] + Decimal(n1) != p2 + [sep] + Decimal(n2)
  {
    if |Decimal(n1)| <= |Decimal(n2)| {
      SuffixedDistinctOrdered(p1, p2, sep, n1, n2);
    } else {
      SuffixedDistinctOrdered(p2, p1, sep, n2, n1);
    }
  }

  lemma SuffixedDistinctOrdered(p1: string, p2: string, sep: char, n1: nat, n2: nat)
    requires !('0' <= sep <= '9')
    requires n1 != n2
    requires |Decimal(n1)| <= |Decimal(n2)|
    ensures p1 + [sep] + Decimal(n1) != p2 + [sep] + Decimal(n2)
  {
    var d1, d2 := Decimal(n1), Decimal(n2);
    var s1, s2 := p1 + [sep] + d1, p2 + [sep] + d2;
    if |s1| != |s2| {
    } else if |d1| < |d2| {
      var k := |s1| - |d1| - 1;
      assert s1[k] == sep;
      assert s2[k] == d2[|d2| - |d1| - 1];
      assert s1[k] != s2[k];
    } else if d1 == d2 {
      DecimalInjective(n1, n2);
      assert false;
    } else {
      assert s1[|s1| - |d1|..] == d1;
      assert s2[|s2| - |d2|..] == d2;
    }
  }
}

=== FILE: watcher.dfy ===
/** Break-on-change watchers. A watcher replaces one property of one object
    with an accessor whose getter and setter run the watcher's hooks around
    a value the accessor keeps; `restore` turns the property back into a data
    property. All live watchers are kept in a static registry in creation
    order, for the static pause, resume and restore of all of them. */
module Watcher {
  import opened Values

  /** A property of an object, the object known by its address. */
  datatype Key = Key(obj: nat, property: string)

  /** A property as the watcher sees it: a data property (every one is
      configurable), or the accessor watcher `owner` installed, with the value
      its closure currently holds. */
  datatype Prop = Data(value: Val, writable: bool) | Hooked(owner: nat, value: Val)

  /** `doBreakIf`: the default breaks when the incoming value is not strictly equal
      to the held one; a configured one is host code whose result is checked
      for truthiness. */
  datatype BreakIf = Differs | Custom(f: nat)

  /** A watcher's overridable hooks: the configured `beforeGet` and
      `beforeSet` host functions (None for the empty default), whether
      `doBreak` is enabled (`doBreak: false` disables it), and `doBreakIf`. */
  datatype Hooks = Hooks(beforeGet: Option<nat>, beforeSet: Option<nat>, doBreak: bool, breakIf: BreakIf)

  const Defaults: Hooks := Hooks(None, None, true, Differs)

  /** A watcher instance: what it watches, its hooks, and `_paused`, which is
      undefined until the first pause or resume. */
  datatype Watcher = Watcher(key: Key, hooks: Hooks, paused: Option<bool>)

  /** The properties of all objects (a missing key reads as undefined), every
      watcher ever created by id, the registry `_watchers` (ids, in creation
      order), and the next id. */
  datatype World = World(props: map<Key, Prop>, watchers: map<nat, Watcher>, live: seq<nat>, next: nat)

  const Empty: World := World(map[], map[], [], 0)

  predicate Distinct(s: seq<nat>) {
    forall i, j :: 0 <= i < j < |s| ==> s[i] != s[j]
  }

  /** The invariant every operation keeps: each accessor belongs to a
      registered watcher of that very property; registered watchers exist,
      once each; ids are below the counter; a watcher's property exists. */
  predicate Valid(w: World) {
    && (forall k :: k in w.props && w.props[k].Hooked? ==>
          && w.props[k].owner in w.live
          && w.props[k].owner in w.watchers
          && w.watchers[w.props[k].owner].key == k)
    && (forall id :: id in w.live ==> id in w.watchers)
    && (forall id :: id in w.watchers ==> id < w.next && w.watchers[id].key in w.props)
    && Distinct(w.live)
  }

  /** Whether `k` is currently an accessor installed by a watcher. */
  predicate IsHooked(w: World, k: Key) {
    k in w.props && w.props[k].Hooked?
  }

  /** Calls an optional hook: the empty default does nothing observable. */
  function Call(f: Option<nat>, args: seq<Val>, host: Host, env: Env): (e: Env)
    ensures f.None? ==> e == env
    ensures f.Some? ==> e.trace == env.trace + [Invoked(f.value, args)]
  {
    if f.Some? then RunHost(host, f.value, args, env) else env
  }

  /** The number of `debugger` statements reached in a trace. */
  function Breaks(t: seq<Event>): nat
    decreases |t|
  {
    if |t| == 0 then 0 else Breaks(t[..|t| - 1]) + (if t[|t| - 1] == Debugger then 1 else 0)
  }

  lemma {:induction false} BreaksAppend(a: seq<Event>, b: seq<Event>)
    ensures Breaks(a + b) == Breaks(a) + Breaks(b)
    decreases |b|
  {
    if |b| > 0 {
      assert (a + b)[..|a + b| - 1] == a + b[..|b| - 1];
      BreaksAppend(a, b[..|b| - 1]);
    } else {
      assert a + b == a;
    }
  }

  /** Reading `obj[property]`: undefined when absent, the value of a data
      property, or the accessor's value after its watcher's `beforeGet` runs
      on that value and the object. */
  function Get(w: World, k: Key, host: Host, env: Env): (r: (Val, Env))
    requires Valid(w)
    ensures k !in w.props ==> r == (Undefined, env)
    ensures k in w.props ==> r.0 == w.props[k].value
    ensures !IsHooked(w, k) ==> r.1 == env
    ensures IsHooked(w, k) ==>
              r.1 == Call(w.watchers[w.props[k].owner].hooks.beforeGet, [w.props[k].value, Ref(k.obj)], host, env)
  {
    if k !in w.props then (Undefined, env)
    else
      match w.props[k]
      case Data(v, _) => (v, env)
      case Hooked(owner, v) => (v, Call(w.watchers[owner].hooks.beforeGet, [v, Ref(k.obj)], host, env))
  }

  /** Whether `doBreak` reaches `debugger` for a set from `held` to `incoming`: the
      watcher is not paused and `doBreakIf` holds. */
  predicate Fires(wt: Watcher, incoming: Val, held: Val, host: Host) {
    && wt.paused != Some(true)
    && match wt.hooks.breakIf
       case Differs => incoming != held
       case Custom(f) => Truthy(host.result(f, [incoming, held, Ref(wt.key.obj)]))
  }

  /** `doBreak`: when not paused, asks `doBreakIf` (a configured one runs as
      host code; a paused watcher never asks) and reaches `debugger` if it
      holds. */
  function DoBreak(wt: Watcher, incoming: Val, held: Val, host: Host, env: Env): (e: Env)
    ensures env.trace <= e.trace
    ensures Breaks(e.trace) == Breaks(env.trace) + (if Fires(wt, incoming, held, host) then 1 else 0)
    ensures wt.paused == Some(true) ==> e == env
  {
    if wt.paused == Some(true) then env
    else
      match wt.hooks.breakIf
      case Differs =>
        if incoming != held then BreaksAppend(env.trace, [Debugger]); Emit(env, [Debugger]) else env
      case Custom(f) =>
        var args := [incoming, held, Ref(wt.key.obj)];
        var e1 := RunHost(host, f, args, env);
        BreaksAppend(env.trace, [Invoked(f, args)]);
        assert Breaks([Invoked(f, args)]) == 0;
        if Truthy(host.result(f, args)) then BreaksAppend(e1.trace, [Debugger]); Emit(e1, [Debugger]) else e1
  }

  /** Assigning `obj[property] = v`. An absent property is created writable;
      a writable data property takes the value; a non-writable one (a
      restored property) ignores the assignment; an accessor runs its
      watcher's `beforeSet` on (incoming, held, object), then `doBreak` unless it
      is disabled, then keeps the incoming value. */
  function Set(w: World, k: Key, v: Val, host: Host, env: Env): (r: (World, Env))
    requires Valid(w)
    ensures Valid(r.0)
    ensures r.0.watchers == w.watchers && r.0.live == w.live && r.0.next == w.next
    ensures k in r.0.props && r.0.props - {k} == w.props - {k}
    ensures env.trace <= r.1.trace
    ensures !IsHooked(w, k) ==> r.1 == env
    ensures k in w.props && w.props[k].Data? && !w.props[k].writable ==> r.0 == w
    ensures k !in w.props || (w.props[k].Data? && w.props[k].writable) ==> r.0.props[k] == Data(v, true)
    ensures IsHooked(w, k) ==> r.0.props[k] == Hooked(w.props[k].owner, v)
    ensures IsHooked(w, k) && w.watchers[w.props[k].owner].hooks.beforeSet.Some? ==>
              |r.1.trace| > |env.trace|
              && r.1.trace[|env.trace|]
                 == Invoked(w.watchers[w.props[k].owner].hooks.beforeSet.value, [v, w.props[k].value, Ref(k.obj)])
  {
    if k !in w.props then (w.(props := w.props[k := Data(v, true)]), env)
    else
      match w.props[k]
      case Data(_, writable) =>
        if writable then (w.(props := w.props[k := Data(v, true)]), env) else (w, env)
      case Hooked(owner, held) =>
        var wt := w.watchers[owner];
        var e1 := Call(wt.hooks.beforeSet, [v, held, Ref(k.obj)], host, env);
        var e2 := if wt.hooks.doBreak then DoBreak(wt, v, held, host, e1) else e1;
        (w.(props := w.props[k := Hooked(owner, v)]), e2)
  }

  /** What an assignment to an accessor adds to the `debugger` count: one
      exactly when `doBreak` is enabled and fires; `beforeSet` adds none. */
  lemma SetBreaks(w: World, k: Key, v: Val, host: Host, env: Env)
    requires Valid(w) && IsHooked(w, k)
    ensures var wt := w.watchers[w.props[k].owner];
            Breaks(Set(w, k, v, host, env).1.trace)
            == Breaks(env.trace) + (if wt.hooks.doBreak && Fires(wt, v, w.props[k].value, host) then 1 else 0)
  {
    var wt := w.watchers[w.props[k].owner];
    var args := [v, w.props[k].value, Ref(k.obj)];
    if wt.hooks.beforeSet.Some? {
      BreaksAppend(env.trace, [Invoked(wt.hooks.beforeSet.value, args)]);
      assert Breaks([Invoked(wt.hooks.beforeSet.value, args)]) == 0;
    }
  }

  /** Reading right after assigning gives the assigned value, unless the
      property is a non-writable data property, which keeps its value. */
  lemma SetThenGet(w: World, k: Key, v: Val, host: Host, env: Env)
    requires Valid(w)
    ensures var (w', env') := Set(w, k, v, host, env);
            Get(w', k, host, env').0
            == (if k in w.props && w.props[k].Data? && !w.props[k].writable then w.props[k].value else v)
  {
  }

  /** Sets `vals` one after another. */
  function SetSeq(w: World, k: Key, vals: seq<Val>, host: Host, env: Env): (r: (World, Env))
    requires Valid(w)
    ensures Valid(r.0)
    ensures r.0.watchers == w.watchers && r.0.live == w.live
    decreases |vals|
  {
    if |vals| == 0 then (w, env)
    else
      var (w1, e1) := Set(w, k, vals[0], host, env);
      SetSeq(w1, k, vals[1..], host, e1)
  }

  /** How many of `vals` differ from the value before them, the first from
      `start`. */
  function Changes(start: Val, vals: seq<Val>): nat
    decreases |vals|
  {
    if |vals| == 0 then 0 else (if vals[0] != start then 1 else 0) + Changes(vals[0], vals[1..])
  }

  /** With the default `doBreakIf`, a run of assignments to a watched property
      reaches `debugger` once per assignment that changes the value, none when
      the watcher is paused or `doBreak` is disabled. */
  lemma {:induction false} BreakOnChange(w: World, k: Key, vals: seq<Val>, host: Host, env: Env)
    requires Valid(w) && IsHooked(w, k)
    requires w.watchers[w.props[k].owner].hooks.breakIf == Differs
    ensures var wt := w.watchers[w.props[k].owner];
            Breaks(SetSeq(w, k, vals, host, env).1.trace)
            == Breaks(env.trace)
               + (if wt.hooks.doBreak && wt.paused != Some(true) then Changes(w.props[k].value, vals) else 0)
    decreases |vals|
  {
    if |vals| > 0 {
      var (w1, e1) := Set(w, k, vals[0], host, env);
      SetBreaks(w, k, vals[0], host, env);
      BreakOnChange(w1, k, vals[1..], host, e1);
    }
  }

  /** Why a watcher could not be created. */
  datatype Error = ObjRequired | PropertyRequired | NotAnObject

  datatype Creation = Created(world: World, id: nat, env: Env) | Failed(error: Error, env: Env)

  /** `init`: validation (obj first, then property), then the accessor,
      which starts from the property's current value, read as any read would
      (through an earlier watcher's getter, whose accessor it replaces), then
      registration. An object that is not an object fails at the accessor, and
      is not registered. */
  function Create(w: World, obj: Val, property: string, hooks: Hooks, host: Host, env: Env): (r: Creation)
    requires Valid(w)
    ensures r.Failed? <==> !Truthy(obj) || property == "" || !obj.Ref?
    ensures r.Failed? ==> r.env == env
    ensures r.Failed? ==> r.error == (if !Truthy(obj) then ObjRequired
                                      else if property == "" then PropertyRequired
                                      else NotAnObject)
    ensures r.Created? ==> var k := Key(obj.addr, property);
              && Valid(r.world)
              && r.id !in w.watchers
              && r.world.watchers == w.watchers[r.id := Watcher(k, hooks, None)]
              && r.world.live == w.live + [r.id]
              && r.world.props == w.props[k := Hooked(r.id, Get(w, k, host, env).0)]
              && r.env == Get(w, k, host, env).1
  {
    if !Truthy(obj) then Failed(ObjRequired, env)
    else if property == "" then Failed(PropertyRequired, env)
    else if !obj.Ref? then Failed(NotAnObject, env)
    else
      var k := Key(obj.addr, property);
      var (v, e1) := Get(w, k, host, env);
      var id := w.next;
      var w' := World(w.props[k := Hooked(id, v)], w.watchers[id := Watcher(k, hooks, None)], w.live + [id], w.next + 1);
      assert id !in w.live;
      Created(w', id, e1)
  }

  /** `Luc.Array.removeFirst` with strict equality: drops the first
      occurrence of `x`, if any; `RemoveFirstAt` says the rest keep their
      order. */
  function RemoveFirst(s: seq<nat>, x: nat): (r: seq<nat>)
    ensures multiset(r) == multiset(s) - multiset{x}
    ensures x !in s ==> r == s
    ensures |s| > 0 && s[0] == x ==> r == s[1..]
    decreases |s|
  {
    assert |s| > 0 ==> s == [s[0]] + s[1..];
    if |s| == 0 then []
    else if s[0] == x then s[1..]
    else [s[0]] + RemoveFirst(s[1..], x)
  }

  /** Removal takes out exactly position `i` when that is the first
      occurrence of `x`, and keeps everything else in order. */
  lemma {:induction false} RemoveFirstAt(s: seq<nat>, x: nat, i: nat)
    requires i < |s| && s[i] == x
    requires forall j :: 0 <= j < i ==> s[j] != x
    ensures RemoveFirst(s, x) == s[..i] + s[i + 1..]
    decreases i
  {
    if i > 0 {
      RemoveFirstAt(s[1..], x, i - 1);
      ShiftSplit(s, i - 1);
    }
  }

  /** Dropping position `j + 1` of `s` keeps its head and drops position `j`
      of its tail. */
  lemma ShiftSplit(s: seq<nat>, j: nat)
    requires j + 1 < |s|
    ensures s[..j + 1] + s[j + 2..] == [s[0]] + (s[1..][..j] + s[1..][j + 1..])
  {
    assert s[..j + 1] == [s[0]] + s[1..][..j];
    assert s[j + 2..] == s[1..][j + 1..];
  }

  /** On a registry without repeats, removal takes `x` out entirely and
      keeps every other id and the absence of repeats. */
  lemma RemoveFirstDistinct(s: seq<nat>, x: nat)
    requires Distinct(s)
    ensures Distinct(RemoveFirst(s, x))
    ensures x !in RemoveFirst(s, x)
    ensures forall y :: y != x ==> (y in RemoveFirst(s, x) <==> y in s)
  {
    var r := RemoveFirst(s, x);
    forall y | y != x
      ensures y in r <==> y in s
    {
      assert y in r <==> multiset(r)[y] > 0;
      assert y in s <==> multiset(s)[y] > 0;
    }
    assert x !in r && Distinct(r) by {
      DistinctCounts(s);
      assert multiset(r)[x] == 0;
      forall i, j | 0 <= i < j < |r|
        ensures r[i] != r[j]
      {
        MultisetTwo(r, i, j);
      }
    }
  }

  /** No id occurs twice in a sequence without repeats. */
  lemma {:induction false} DistinctCounts(s: seq<nat>)
    requires Distinct(s)
    ensures forall y :: multiset(s)[y] <= 1
    decreases |s|
  {
    if |s| > 0 {
      assert Distinct(s[1..]);
      DistinctCounts(s[1..]);
      assert s == [s[0]] + s[1..];
      assert s[0] !in s[1..];
    }
  }

  lemma {:induction false} MultisetTwo(s: seq<nat>, i: nat, j: nat)
    requires i < j < |s|
    ensures s[i] == s[j] ==> multiset(s)[s[i]] >= 2
  {
    assert s == s[..j] + [s[j]] + s[j + 1..];
    assert s[i] in s[..j];
  }

  /** `restore`: reads the property through the current getter, makes it a
      data property holding that value (an accessor becomes non-writable, a
      data property keeps its writability), and unregisters the watcher. */
  function Restore(w: World, id: nat, host: Host, env: Env): (r: (World, Env))
    requires Valid(w) && id in w.watchers
    ensures Valid(r.0)
    ensures r.0.watchers == w.watchers && r.0.next == w.next
    ensures r.0.live == RemoveFirst(w.live, id) && id !in r.0.live
    ensures var k := w.watchers[id].key;
            && r.0.props - {k} == w.props - {k}
            && r.0.props[k].Data?
            && r.0.props[k].value == w.props[k].value
            && (w.props[k].Hooked? ==> !r.0.props[k].writable)
            && (w.props[k].Data? ==> r.0.props[k] == w.props[k])
    ensures r.1 == Get(w, w.watchers[id].key, host, env).1
  {
    var k := w.watchers[id].key;
    var (v, e1) := Get(w, k, host, env);
    var p := if k in w.props && w.props[k].Data? then Data(v, w.props[k].writable) else Data(v, false);
    var live := RemoveFirst(w.live, id);
    RemoveFirstDistinct(w.live, id);
    var w' := w.(props := w.props[k := p], live := live);
    assert forall k' :: k' in w'.props && w'.props[k'].Hooked? ==> k' != k && w'.props[k'] == w.props[k'];
    (w', e1)
  }

  /** Restoring twice is restoring once: the second finds a data property,
      reads it without hooks and changes nothing. */
  lemma RestoreTwice(w: World, id: nat, host: Host, env: Env)
    requires Valid(w) && id in w.watchers
    ensures var (w1, e1) := Restore(w, id, host, env);
            Restore(w1, id, host, e1) == (w1, e1)
  {
    var (w1, e1) := Restore(w, id, host, env);
    var k := w.watchers[id].key;
    assert w1.props[k := w1.props[k]] == w1.props;
  }

  /** After `restore`, the property keeps the watched value and ignores
      assignments, without running any hook. */
  lemma RestoredIgnoresSets(w: World, id: nat, v: Val, host: Host, env: Env)
    requires Valid(w) && id in w.watchers && IsHooked(w, w.watchers[id].key)
    ensures var k := w.watchers[id].key;
            var (w1, e1) := Restore(w, id, host, env);
            && Set(w1, k, v, host, e1) == (w1, e1)
            && Get(w1, k, host, e1) == (w.props[k].value, e1)
  {
  }

  /** `pause` and `resume` set `_paused`; nothing else changes. */
  function SetPaused(w: World, id: nat, p: bool): (r: World)
    requires id in w.watchers
    ensures r.props == w.props && r.live == w.live && r.next == w.next
    ensures r.watchers.Keys == w.watchers.Keys
    ensures r.watchers[id] == w.watchers[id].(paused := Some(p))
    ensures forall i :: i in w.watchers && i != id ==> r.watchers[i] == w.watchers[i]
  {
    w.(watchers := w.watchers[id := w.watchers[id].(paused := Some(p))])
  }

  function Pause(w: World, id: nat): (r: World)
    requires id in w.watchers
    ensures r.props == w.props && r.live == w.live && r.next == w.next
    ensures r.watchers.Keys == w.watchers.Keys
    ensures IsPaused(r, id) == Some(true)
    ensures r.watchers[id] == w.watchers[id].(paused := Some(true))
    ensures forall i :: i in w.watchers && i != id ==> r.watchers[i] == w.watchers[i]
  {
    SetPaused(w, id, true)
  }

  function Resume(w: World, id: nat): (r: World)
    requires id in w.watchers
    ensures r.props == w.props && r.live == w.live && r.next == w.next
    ensures r.watchers.Keys == w.watchers.Keys
    ensures IsPaused(r, id) == Some(false)
    ensures r.watchers[id] == w.watchers[id].(paused := Some(false))
    ensures forall i :: i in w.watchers && i != id ==> r.watchers[i] == w.watchers[i]
  {
    SetPaused(w, id, false)
  }

  /** `isPaused`: undefined (None) before the first pause or resume. While it
      is true no assignment's break check fires; otherwise, with the default
      `doBreakIf`, every change fires. */
  function IsPaused(w: World, id: nat): (p: Option<bool>)
    requires id in w.watchers
    ensures p == Some(true) ==> forall v, held, host :: !Fires(w.watchers[id], v, held, host)
    ensures p != Some(true) && w.watchers[id].hooks.breakIf == Differs ==>
              forall v, held, host :: v != held ==> Fires(w.watchers[id], v, held, host)
  {
    w.watchers[id].paused
  }

  /** A paused watcher never reaches `debugger`, whatever is assigned; once
      resumed it breaks on the next change. */
  lemma PausedNeverBreaks(w: World, id: nat, vals: seq<Val>, host: Host, env: Env)
    requires Valid(w) && id in w.watchers && IsHooked(w, w.watchers[id].key)
    requires w.props[w.watchers[id].key].owner == id
    requires w.watchers[id].hooks.breakIf == Differs
    ensures Breaks(SetSeq(Pause(w, id), w.watchers[id].key, vals, host, env).1.trace) == Breaks(env.trace)
    ensures var k := w.watchers[id].key;
            w.watchers[id].hooks.doBreak && |vals| == 1 && vals[0] != w.props[k].value ==>
              Breaks(SetSeq(Resume(w, id), k, vals, host, env).1.trace) == Breaks(env.trace) + 1
  {
    PausedSilent(w, id, vals, host, env);
    ResumedBreaks(w, id, vals, host, env);
  }

  lemma PausedSilent(w: World, id: nat, vals: seq<Val>, host: Host, env: Env)
    requires Valid(w) && id in w.watchers && IsHooked(w, w.watchers[id].key)
    requires w.props[w.watchers[id].key].owner == id
    requires w.watchers[id].hooks.breakIf == Differs
    ensures Breaks(SetSeq(Pause(w, id), w.watchers[id].key, vals, host, env).1.trace) == Breaks(env.trace)
  {
    BreakOnChange(Pause(w, id), w.watchers[id].key, vals, host, env);
  }

  lemma ResumedBreaks(w: World, id: nat, vals: seq<Val>, host: Host, env: Env)
    requires Valid(w) && id in w.watchers && IsHooked(w, w.watchers[id].key)
    requires w.props[w.watchers[id].key].owner == id
    requires w.watchers[id].hooks.breakIf == Differs
    ensures var k := w.watchers[id].key;
            w.watchers[id].hooks.doBreak && |vals| == 1 && vals[0] != w.props[k].value ==>
              Breaks(SetSeq(Resume(w, id), k, vals, host, env).1.trace) == Breaks(env.trace) + 1
  {
    var k := w.watchers[id].key;
    BreakOnChange(Resume(w, id), k, vals, host, env);
    if |vals| == 1 {
      assert Changes(vals[0], vals[1..]) == 0;
    }
  }

  /** Sets `_paused` of every listed watcher, in order. */
  function SetPausedEach(w: World, ids: seq<nat>, p: bool): (r: World)
    requires forall id :: id in ids ==> id in w.watchers
    ensures r.props == w.props && r.live == w.live && r.next == w.next
    ensures r.watchers.Keys == w.watchers.Keys
    ensures forall id :: id in ids ==> r.watchers[id].paused == Some(p)
    ensures forall id :: id in w.watchers ==> r.watchers[id] == w.watchers[id].(paused := r.watchers[id].paused)
    ensures forall id :: id in w.watchers && id !in ids ==> r.watchers[id] == w.watchers[id]
    decreases |ids|
  {
    if |ids| == 0 then w
    else SetPausedEach(SetPaused(w, ids[0], p), ids[1..], p)
  }

  /** `pauseAll`: pauses every registered watcher and no other. */
  function PauseAll(w: World): (r: World)
    requires Valid(w)
    ensures Valid(r)
    ensures r.watchers.Keys == w.watchers.Keys
    ensures r.props == w.props && r.live == w.live && r.next == w.next
    ensures forall id :: id in w.live ==> IsPaused(r, id) == Some(true)
    ensures forall id :: id in w.watchers ==> r.watchers[id] == w.watchers[id].(paused := r.watchers[id].paused)
    ensures forall id :: id in w.watchers && id !in w.live ==> r.watchers[id] == w.watchers[id]
  {
    SetPausedEach(w, w.live, true)
  }

  /** `resumeAll`: resumes every registered watcher and no other. */
  function ResumeAll(w: World): (r: World)
    requires Valid(w)
    ensures Valid(r)
    ensures r.watchers.Keys == w.watchers.Keys
    ensures r.props == w.props && r.live == w.live && r.next == w.next
    ensures forall id :: id in w.live ==> IsPaused(r, id) == Some(false)
    ensures forall id :: id in w.watchers ==> r.watchers[id] == w.watchers[id].(paused := r.watchers[id].paused)
    ensures forall id :: id in w.watchers && id !in w.live ==> r.watchers[id] == w.watchers[id]
  {
    SetPausedEach(w, w.live, false)
  }

  /** Restores the listed watchers in order (`restoreAll` walks a copy of the
      registry, since each restore removes from it). Every property keeps
      its value; an accessor of a listed watcher becomes a non-writable data
      property; data properties, and properties no listed watcher watches,
      are untouched. */
  function RestoreEach(w: World, ids: seq<nat>, host: Host, env: Env): (r: (World, Env))
    requires Valid(w)
    requires forall id :: id in ids ==> id in w.watchers
    ensures Valid(r.0) && r.0.watchers == w.watchers
    ensures forall id :: id in r.0.live ==> id in w.live
    ensures forall id :: id in ids ==> id !in r.0.live
    ensures r.0.props.Keys == w.props.Keys
    ensures forall k :: k in w.props ==> r.0.props[k].value == w.props[k].value
    ensures forall k :: k in w.props && w.props[k].Data? ==> r.0.props[k] == w.props[k]
    ensures forall k :: k in w.props && (forall id :: id in ids ==> w.watchers[id].key != k) ==>
              r.0.props[k] == w.props[k]
    ensures forall id :: id in ids && w.props[w.watchers[id].key].Hooked? ==>
              r.0.props[w.watchers[id].key] == Data(w.props[w.watchers[id].key].value, false)
    decreases |ids|
  {
    if |ids| == 0 then (w, env)
    else
      var (w1, e1) := Restore(w, ids[0], host, env);
      RemoveFirstSubset(w.live, ids[0]);
      RestoreProps(w, ids[0], host, env);
      RestoreEach(w1, ids[1..], host, e1)
  }

  /** One `restore`, property by property: the watched property keeps its
      value and an accessor there becomes a non-writable data property;
      every other property, and a data property there, is untouched. */
  lemma RestoreProps(w: World, id: nat, host: Host, env: Env)
    requires Valid(w) && id in w.watchers
    ensures var w1 := Restore(w, id, host, env).0;
            var k0 := w.watchers[id].key;
            && w1.props.Keys == w.props.Keys
            && (forall k :: k in w.props ==> w1.props[k].value == w.props[k].value)
            && (forall k :: k in w.props && (k != k0 || w.props[k].Data?) ==> w1.props[k] == w.props[k])
            && (w.props[k0].Hooked? ==> w1.props[k0] == Data(w.props[k0].value, false))
  {
    var w1 := Restore(w, id, host, env).0;
    var k0 := w.watchers[id].key;
    forall k | k in w.props && k != k0
      ensures k in w1.props && w1.props[k] == w.props[k]
    {
      assert k in w.props - {k0};
      assert w1.props[k] == (w1.props - {k0})[k];
    }
  }

  /** After restoring the listed watchers, each of their properties is a
      data property, and so is every property that was one before. */
  lemma RestoreEachData(w: World, ids: seq<nat>, host: Host, env: Env)
    requires Valid(w)
    requires forall id :: id in ids ==> id in w.watchers
    ensures var r := RestoreEach(w, ids, host, env);
            && (forall k :: k in w.props && w.props[k].Data? ==> k in r.0.props && r.0.props[k].Data?)
            && (forall id :: id in ids ==> w.watchers[id].key in r.0.props && r.0.props[w.watchers[id].key].Data?)
  {
  }

  /** Removal never adds an element. */
  lemma RemoveFirstSubset(s: seq<nat>, x: nat)
    ensures forall y :: y in RemoveFirst(s, x) ==> y in s
  {
    forall y | y in RemoveFirst(s, x)
      ensures y in s
    {
      assert multiset(RemoveFirst(s, x))[y] > 0;
    }
  }

  /** `restoreAll`: every registered watcher is restored, so the registry
      ends empty and each watched property is a data property again. Every
      property keeps its value: each accessor becomes a non-writable data
      property holding the value it held, and data properties are untouched. */
  function RestoreAll(w: World, host: Host, env: Env): (r: (World, Env))
    requires Valid(w)
    ensures Valid(r.0) && r.0.watchers == w.watchers
    ensures r.0.live == []
    ensures forall id :: id in w.live ==> w.watchers[id].key in r.0.props && r.0.props[w.watchers[id].key].Data?
    ensures r.0.props.Keys == w.props.Keys
    ensures forall k :: k in w.props ==>
              r.0.props[k] == (if w.props[k].Hooked? then Data(w.props[k].value, false) else w.props[k])
  {
    RestoreEachEmpties(w, w.live, host, env);
    RestoreEachData(w, w.live, host, env);
    RestoreEach(w, w.live, host, env)
  }

  /** `getAll`: the registry, in which every watcher of a consistent world
      appears once, and which holds the owner of every accessor. Its order is
      creation order: `GetAllCreate` and `GetAllRestore` say how `init` and
      `restore` change it. */
  function GetAll(w: World): (ids: seq<nat>)
    ensures Valid(w) ==> Distinct(ids)
    ensures Valid(w) ==> forall id :: id in ids ==> id in w.watchers && w.watchers[id].key in w.props
    ensures Valid(w) ==> forall k :: IsHooked(w, k) ==> w.props[k].owner in ids
  {
    w.live
  }

  /** A created watcher joins the end of the registry; a failed creation
      leaves the world as it was. */
  lemma GetAllCreate(w: World, obj: Val, property: string, hooks: Hooks, host: Host, env: Env)
    requires Valid(w)
    ensures var c := Create(w, obj, property, hooks, host, env);
            c.Created? ==> GetAll(c.world) == GetAll(w) + [c.id]
  {
  }

  /** A restored watcher leaves the registry from its position; the others
      keep their order. */
  lemma GetAllRestore(w: World, id: nat, host: Host, env: Env)
    requires Valid(w) && id in w.watchers
    ensures GetAll(Restore(w, id, host, env).0) == RemoveFirst(GetAll(w), id)
    ensures forall i :: 0 <= i < |w.live| && w.live[i] == id ==>
              GetAll(Restore(w, id, host, env).0) == w.live[..i] + w.live[i + 1..]
  {
    forall i | 0 <= i < |w.live| && w.live[i] == id
      ensures RemoveFirst(w.live, id) == w.live[..i] + w.live[i + 1..]
    {
      RemoveFirstAt(w.live, id, i);
    }
  }

  lemma {:induction false} RestoreEachEmpties(w: World, ids: seq<nat>, host: Host, env: Env)
    requires Valid(w) && w.live == ids
    ensures RestoreEach(w, ids, host, env).0.live == []
    decreases |ids|
  {
    if |ids| > 0 {
      var (w1, e1) := Restore(w, ids[0], host, env);
      RestoreEachEmpties(w1, ids[1..], host, e1);
    }
  }

  /** `restoreAll` empties the registry and leaves no accessor behind, so no
      later assignment runs a hook or reaches `debugger`. */
  lemma RestoreAllClears(w: World, host: Host, env: Env)
    requires Valid(w)
    ensures GetAll(RestoreAll(w, host, env).0) == []
    ensures forall k :: !IsHooked(RestoreAll(w, host, env).0, k)
    ensures forall k, v, env' :: Set(RestoreAll(w, host, env).0, k, v, host, env').1 == env'
  {
    RestoreEachEmpties(w, w.live, host, env);
  }

  /** The break-on-change example: a property holding true, watched with the
      defaults, assigned true, false, false, true, reaches `debugger` twice. */
  lemma BreakOnChangeExample(w: World, a: nat, host: Host, env: Env)
    requires Valid(w) && w.props == map[Key(a, "prop") := Data(Bool(true), true)]
    ensures var c := Create(w, Ref(a), "prop", Defaults, host, env);
            && c.Created?
            && Breaks(SetSeq(c.world, Key(a, "prop"), [Bool(true), Bool(false), Bool(false), Bool(true)], host, c.env).1.trace)
               == Breaks(env.trace) + 2
  {
    var c := Create(w, Ref(a), "prop", Defaults, host, env);
    var k := Key(a, "prop");
    var vals := [Bool(true), Bool(false), Bool(false), Bool(true)];
    BreakOnChange(c.world, k, vals, host, c.env);
    assert vals[1..] == [Bool(false), Bool(false), Bool(true)];
    assert vals[1..][1..] == [Bool(false), Bool(true)];
    assert vals[1..][1..][1..] == [Bool(true)];
    assert Changes(Bool(true), vals) == 2;
  }
}
